=== FILE: README.md ===
# Lendly loan applications — a verified model

Lendly is a mobile app where applicants submit loan applications and managers
review them. This project models the app's core in Dafny:

- **Document URL derivation.** A stored paysheet URL on the object store
  (`cloudinary.com`) is rewritten into view, download, mobile and embed variants.
  A transformation directive is spliced in right after `/upload/`.
- **URL helpers.** A guard for PDF URLs, and the recovery of a file name from a URL.
- **The record repository.** Submit, list, update, delete and get-one work over
  the `loanApplications` collection. The paysheet is uploaded before any write.
- **The two form screens.** The applicant's submit screen validates the form and
  clears it after a successful submit. The manager's edit screen loads a record
  into the form, validates it without requiring a paysheet, and saves it.

Layout, one module per file:

| file | module | models |
|---|---|---|
| `results.dfy` | `Results` | `Option` (the source's `null`) and `Result` (a thrown error) |
| `text.dfy` | `Text` | the string built-ins the core relies on: `includes`, `indexOf`, `split`, `trim` |
| `uri_component.dfy` | `UriComponent` | `encodeURIComponent` / `decodeURIComponent` over UTF-8 |
| `loan_types.dfy` | `LoanTypes` | the form data, the stored document and the returned record |
| `pdf_urls.dfy` | `PdfUrls` | the four URL generators, the dispatcher, `validatePDFUrl`, `getPDFFileName` |
| `doc_ids.dfy` | `DocIds` | document ids issued from a counter |
| `loan_service.dfy` | `LoanService` | the repository class, the listing sort and the listing order |
| `form_checks.dfy` | `FormChecks` | the ordered-checks shape both validators share |
| `apply_screen.dfy` | `ApplyScreen` | the submit screen: `validateForm`, `handleSubmit` |
| `edit_screen.dfy` | `EditScreen` | the edit screen: `validateForm`, `loadApplication`, `handleUpdate` |

How the main source constructs are modelled:

- **The rewrite guard.** The code checks `url.split("/upload/").length === 2`.
  This is stricter than "split on the first occurrence": a second, separate
  `/upload/` switches the rewrite off. `split` scans for occurrences left to
  right, and the occurrences it finds do not overlap. So `/upload/upload/`
  still gives two parts, because its second occurrence shares the first one's
  final `/`. `PdfUrls.RewriteIff` states the guard exactly.
- **The upload endpoint.** It is a function parameter (`LoanService.Uploader`).
  It returns the stored asset's URL or the error text.
- **The database.** It is a class holding a map from ids to documents, an id
  counter and a logical clock. The clock advances once per submit or update.
- **The listing sort.** It is an in-place insertion sort on an array. It is
  proved sorted newest first and a permutation of its input.

## Model

| member | source | states |
|---|---|---|
| Text.SplitInTwo | services/loanService.ts:201-202 | `split("/upload/")` yields two parts exactly when every occurrence of the marker starts inside the first one; the parts are then the text before and after the first occurrence |
| Text.TrimEmptyIff | app/index.tsx:67-81 | `trim()` leaves the empty string exactly when every character is white space |
| UriComponent.EncodeAlphabet | services/loanService.ts:219 | the encoded name consists only of unreserved characters and `%` escapes |
| UriComponent.EncodeConcat | services/loanService.ts:219 | encoding a concatenation encodes each piece on its own |
| UriComponent.DecodeEncode | services/loanService.ts:219 | decoding an encoded name gives the name back |
| PdfUrls.Splice | services/loanService.ts:198-263 | the shared generator body: the URL unchanged unless the guard holds; otherwise the directive and `/` inserted right after the first `/upload/` |
| PdfUrls.GeneratePdfViewUrl | services/loanService.ts:198-212 | unchanged unless the guard holds; otherwise the view directive `fl_attachment:inline,f_auto,q_auto,w_1200,dpr_auto` inserted after `/upload/` |
| PdfUrls.GeneratePdfDownloadUrl | services/loanService.ts:214-229 | unchanged unless the guard holds; otherwise `fl_attachment:` plus the encoded file name, or `paysheet.pdf` when no name is given |
| PdfUrls.GenerateMobilePdfUrl | services/loanService.ts:232-246 | unchanged unless the guard holds; otherwise `f_auto,q_auto:eco,w_800` inserted after `/upload/` |
| PdfUrls.GenerateEmbedPdfUrl | services/loanService.ts:249-263 | unchanged unless the guard holds; otherwise `f_auto,q_auto` inserted after `/upload/` |
| PdfUrls.GetOptimizedPdfUrl | services/loanService.ts:266-280 | `''` for an empty URL; otherwise the download, mobile or embed generator for those purposes, and the view generator for `view` and any other value |
| PdfUrls.RewriteIff | services/loanService.ts:200-203 | a generator changes the URL exactly when the URL is non-empty, names the host, and `/upload/` has only one occurrence as `split` sees it |
| PdfUrls.MarkerOnceIsRewritten | services/loanService.ts:200-203 | a URL on the host containing `/upload/` exactly once is rewritten |
| PdfUrls.MalformedUnchanged | services/loanService.ts:198-263 | a URL without `/upload/`, or not on the host, comes back unchanged from all four generators |
| PdfUrls.DerivedKeepsPrefixAndSuffix | services/loanService.ts:202-205 | a derived URL starts with `parts[0]` plus `/upload/` and ends with `parts[1]`; it is longer by the directive plus one `/` |
| PdfUrls.InsertionInjective | services/loanService.ts:198-263 | different directives give different derived URLs |
| PdfUrls.DownloadDirectiveIsNotView | services/loanService.ts:218-220 | no file name makes the download directive equal to the view directive |
| PdfUrls.VariantsPairwiseDistinct | services/loanService.ts:198-263 | for a URL the guard accepts, the view, download, mobile and embed URLs are pairwise different |
| PdfUrls.DerivedStaysOnHost | services/loanService.ts:200-205 | a derived URL still names `cloudinary.com` |
| PdfUrls.ValidatePdfUrl | services/loanService.ts:437-445 | accepted URLs are non-empty, parse, and mention `.pdf` or the host |
| PdfUrls.DerivedUrlValid | services/loanService.ts:437-445 | every derived URL that parses passes `validatePDFUrl` |
| PdfUrls.FileNameFallback | services/loanService.ts:447-459 | a URL not mentioning `.pdf` gives the fallback name |
| PdfUrls.LastSegmentWithoutPdf | services/loanService.ts:450-455 | a URL whose last `/`-segment does not mention `.pdf` gives the fallback name, whatever earlier segments hold |
| PdfUrls.UndecodableLastSegment | services/loanService.ts:453-457 | a last segment that `decodeURIComponent` rejects gives the fallback name, as the caught error does |
| PdfUrls.EarlierPdfSegmentIgnored | services/loanService.ts:447-459 | with the default argument, `https://x/a.pdf/b` gives `document.pdf` |
| PdfUrls.FileNameAfterLastSlash | services/loanService.ts:450-453 | a non-empty last segment that mentions `.pdf` and decodes gives its decoded text |
| PdfUrls.FileNameRoundTrip | services/loanService.ts:447-459 | the file name recovered from `prefix/encodeURIComponent(name)` is `name`, for any name mentioning `.pdf` |
| DocIds.IdsDistinct | services/loanService.ts:307 | different counter values give different document ids, so an added document never overwrites one |
| LoanService.SortNewestFirst | services/loanService.ts:340 | the sorted array is ordered by `createdAt`, newest first, and is a permutation of the input |
| LoanService.NewestFirstUnique | services/loanService.ts:340 | two newest-first orderings of the same records are equal when no two records share a creation time |
| LoanService.ListedAreStored | services/loanService.ts:321-336 | each listed record is the stored document under its own id, with absent paysheet fields read as `''` |
| LoanService.ListingOfThreeInOrder | services/loanService.ts:317-345 | three documents created one after another are listed in reverse creation order |
| LoanService.ListingScenario | services/loanService.ts:283-345 | three paysheet-less submissions to an empty collection are listed newest first, with empty attachment fields |
| LoanService.LoanRepository.SubmitLoanApplication | services/loanService.ts:283-314 | succeeds exactly when there is no paysheet or its upload succeeds; a failed upload changes nothing; otherwise it adds one document under a fresh id; the five text fields are stored as given; the attachment URL and name are both `''` or come from the upload and the file name; `createdAt == updatedAt` |
| LoanService.LoanRepository.GetLoanApplications | services/loanService.ts:317-345 | exactly the stored records, one per document (so none for an empty collection), with attachment fields defaulted to `''`, newest first |
| LoanService.LoanRepository.UpdateLoanApplication | services/loanService.ts:348-387 | fails with `Application not found` exactly for a missing id and changes nothing; an existing id fails only with the upload error, and then nothing changes; otherwise it replaces the five text fields and sets the attachment fields from the new file or keeps the old ones; it refreshes `updatedAt`, keeps `createdAt` and touches no other document |
| LoanService.LoanRepository.DeleteLoanApplication | services/loanService.ts:390-400 | removes the document with that id, if any, and nothing else |
| LoanService.LoanRepository.GetLoanApplication | services/loanService.ts:403-434 | `None` for a missing id; otherwise the stored fields under that id with attachment fields defaulted to `''` |
| FormChecks.FirstFailure | app/index.tsx:66-86 | `None` exactly when every check passes; otherwise the message of the first failing check |
| FormChecks.BlankIff | app/index.tsx:67-81 | `!field.trim()` holds exactly when the field is all white space |
| ApplyScreen.ValidateFormIsFirstFailure | app/index.tsx:66-86 | the submit validator returns the first failure among name, email (non-blank and containing `@`), telephone, occupation, salary and paysheet, in that order, with their messages |
| ApplyScreen.ValidateFormAcceptsIff | app/index.tsx:66-86 | the submit form passes exactly when every text field has a non-white-space character, the email has an `@`, and a paysheet is attached |
| ApplyScreen.LoanApplicationScreen.HandleSubmit | app/index.tsx:100-127 | a failing form raises the validation message as a warning, sends nothing and leaves the repository (documents, id counter, clock) as it was; a failed upload raises the error alert, keeps the form and leaves the documents, the id counter and the clock as they were; a successful submit advances the counter and the clock once and adds one record under a fresh id holding the five text fields, the uploaded attachment's URL and name and both timestamps equal to the new clock, leaves every other record as it was, raises the success alert and resets the form to five empty strings without a paysheet; the busy flag ends false |
| EditScreen.ValidateFormIsFirstFailure | app/dashboard/edit-application.tsx:91-108 | the edit validator returns the first failure among name, email, telephone, occupation and salary, in that order, with the edit screen's messages |
| EditScreen.EditAcceptsIff | app/dashboard/edit-application.tsx:91-108 | the edit validator accepts a form exactly when the submit validator accepts it or objects only to the missing paysheet |
| EditScreen.PaysheetIrrelevant | app/dashboard/edit-application.tsx:91-108 | the edit validator never looks at the paysheet |
| EditScreen.EditApplicationScreen.LoadApplication | app/dashboard/edit-application.tsx:32-54 | a found record's five text fields are copied into the form with no paysheet selected, and its paysheet name (or `''`) is shown; a missing record navigates back and leaves the form alone; loading ends either way |
| EditScreen.EditApplicationScreen.HandleUpdate | app/dashboard/edit-application.tsx:110-127 | the form, the shown attachment name and the loading flag are never changed; a failing form leaves the repository (documents, id counter, clock), the navigation and the busy flag as they were; otherwise, when the record exists and the new paysheet (if any) uploads, the record holds the form's five text fields and either the new file's URL and name or, with no file picked, its old attachment (or `''`), keeps its `createdAt`, gets the advanced clock as its `updatedAt` (later than the old one), no other record changes and the screen navigates back; in every other case the collection, the clock and the navigation are unchanged; the id counter never changes; the busy flag ends false |

## Left out

- `uploadToCloudinary` (services/loanService.ts:163-193): the fetch, the form data and the JSON parsing are replaced by the `Uploader` parameter. A successful response without a `secure_url` is not modelled: the parameter always yields a URL on success.
- Firestore: the SDK calls become operations on an in-memory map. Write or read failures of the database itself are not modelled, so a submit or update fails only when the upload fails.
- Firestore's random document ids are replaced by decimal numerals from a counter. Only their freshness matters to the core.
- `new Date()` is replaced by a natural-number clock that advances once per submit or update. `submitLoanApplication` (services/loanService.ts:303-304) reads the clock twice; the model reads it once, so `createdAt == updatedAt`.
- Timestamps that are missing when a record is read back (the `new Date()` fallbacks at services/loanService.ts:334-335 and 420-421) are not modelled: every stored document carries both timestamps.
- Records created at the same instant: the listing order among them follows the snapshot order. The model leaves that order unspecified and states only that the listing is newest first.
- `validatePDFUrl`: the `new URL(url)` parse is the predicate parameter `parses`. The `typeof url !== 'string'` test is implied by the types.
- PdfUrls.FileNameRoundTrip: the round trip is stated only for URLs of the form `prefix/encodeURIComponent(name)`, the names the app itself encodes; `PdfUrls.FileNameAfterLastSlash` states the successful case for any slash-free last segment.
- The `try`/`catch` around each generator: the only call there that can throw is `encodeURIComponent`, on a lone surrogate. Strings here are sequences of Unicode scalar values, so that case cannot arise and is not modelled. Positions count scalar values rather than UTF-16 code units; this changes no result of the modelled operations.
- `handlePDFError` (services/loanService.ts:462-475) only rewrites an error message for logging, and the console logging is left out too.
- Screen plumbing: the input and document-picker handlers, rendering, styles and the `useEffect` that calls `loadApplication` when an id is present. An alert appears as the `Alert` value `HandleSubmit` returns, and `router.back()` appears as the `navigatedBack` flag.
- `loadApplication` also navigates back when `getLoanApplication` throws (app/dashboard/edit-application.tsx:48-50). The modelled repository never throws on a read, so only the missing-record path is modelled.
- Concurrent updates racing on the same document (last write wins) are not modelled: every operation runs to completion before the next begins.
- The screens outside the two form screens (application detail, dashboard home, manager login, welcome) and their device I/O (download, share, media library) are not part of this model.

=== FILE: apply_screen.dfy ===
/** The applicant's form screen: its validator and the submit handler. */
module ApplyScreen {
  import opened Results
  import opened Text
  import opened LoanTypes
  import opened FormChecks
  import LoanService
  import DocIds

  const NameError: string := "Please enter your full name"
  const EmailError: string := "Please enter a valid email address"
  const TelephoneError: string := "Please enter your telephone number"
  const OccupationError: string := "Please enter your occupation"
  const SalaryError: string := "Please enter your monthly salary"
  const PaysheetError: string := "Please upload your paysheet (PDF)"

  const SuccessMessage: string := "Your loan application has been submitted successfully. We will contact you shortly."
  const FailureMessage: string := "Failed to submit application. Please try again."

  /** An `Alert.alert(title, message)` shown to the applicant. */
  datatype Alert = Alert(title: string, message: string)

  /** `validateForm`: the first failing check's message, or `None` when the form may be submitted. */
  function ValidateForm(form: LoanFormData): Option<string>
  {
    if Blank(form.name) then Some(NameError)
    else if Blank(form.email) || !Contains(form.email, "@") then Some(EmailError)
    else if Blank(form.telephone) then Some(TelephoneError)
    else if Blank(form.occupation) then Some(OccupationError)
    else if Blank(form.salary) then Some(SalaryError)
    else if form.paysheet.None? then Some(PaysheetError)
    else None
  }

  /** The submit form's checks in declaration order. */
  function SubmitChecks(form: LoanFormData): seq<Check>
  {
    [ Check(!Blank(form.name), NameError),
      Check(!Blank(form.email) && Contains(form.email, "@"), EmailError),
      Check(!Blank(form.telephone), TelephoneError),
      Check(!Blank(form.occupation), OccupationError),
      Check(!Blank(form.salary), SalaryError),
      Check(form.paysheet.Some?, PaysheetError) ]
  }

  /** `validateForm` reports the first failing check in declaration order, and `null` when none fails. */
  lemma ValidateFormIsFirstFailure(form: LoanFormData)
    ensures ValidateForm(form) == FirstFailure(SubmitChecks(form))
  {
    FirstFailureOfSix(Check(!Blank(form.name), NameError),
                      Check(!Blank(form.email) && Contains(form.email, "@"), EmailError),
                      Check(!Blank(form.telephone), TelephoneError),
                      Check(!Blank(form.occupation), OccupationError),
                      Check(!Blank(form.salary), SalaryError),
                      Check(form.paysheet.Some?, PaysheetError));
  }

  /**
   * A form passes exactly when name, telephone, occupation and salary each hold a
   * character that is not white space, the email holds one and an `@`, and a
   * paysheet is attached.
   */
  lemma ValidateFormAcceptsIff(form: LoanFormData)
    ensures ValidateForm(form).None? <==>
      && (exists i :: 0 <= i < |form.name| && !IsWhiteSpace(form.name[i]))
      && (exists i :: 0 <= i < |form.email| && !IsWhiteSpace(form.email[i]))
      && Contains(form.email, "@")
      && (exists i :: 0 <= i < |form.telephone| && !IsWhiteSpace(form.telephone[i]))
      && (exists i :: 0 <= i < |form.occupation| && !IsWhiteSpace(form.occupation[i]))
      && (exists i :: 0 <= i < |form.salary| && !IsWhiteSpace(form.salary[i]))
      && form.paysheet.Some?
  {
    BlankIff(form.name);
    BlankIff(form.email);
    BlankIff(form.telephone);
    BlankIff(form.occupation);
    BlankIff(form.salary);
  }

  /** The validator's `if` chain over its failing conditions passes only when the last one is false. */
  lemma ChainNeedsLastCheck(n: bool, e: bool, t: bool, o: bool, s: bool, p: bool)
    ensures var r := if n then Some(NameError) else if e then Some(EmailError) else if t then Some(TelephoneError)
                     else if o then Some(OccupationError) else if s then Some(SalaryError)
                     else if p then Some(PaysheetError) else None;
            r.None? ==> !p
  {
  }

  /** The submit screen's state: the form being filled in and the busy flag. */
  class LoanApplicationScreen {
    var formData: LoanFormData
    var isSubmitting: bool

    constructor ()
      ensures formData == EmptyForm && !isSubmitting
    {
      formData := EmptyForm;
      isSubmitting := false;
    }

    /**
     * `handleSubmit`: a form that fails validation is reported and nothing is sent;
     * otherwise the application is submitted, and on success the form is cleared.
     */
    method HandleSubmit(service: LoanService.LoanRepository, upload: LoanService.Uploader) returns (alert: Alert)
      requires service.Valid()
      modifies this, service
      ensures service.Valid()
      ensures ValidateForm(old(formData)).Some? ==>
        isSubmitting == old(isSubmitting) && alert == Alert("Warning", ValidateForm(old(formData)).value) &&
        formData == old(formData) && service.docs == old(service.docs) &&
        service.nextId == old(service.nextId) && service.clock == old(service.clock)
      ensures ValidateForm(old(formData)).None? ==> old(formData).paysheet.Some? && !isSubmitting
      ensures ValidateForm(old(formData)).None? ==> Sent(old(formData), alert, formData, old(service.docs), service.docs,
                                                      old(service.nextId), service.nextId, old(service.clock), service.clock, upload)
    {
      var validationError := ValidateForm(formData);
      if validationError.Some? {
        alert := Alert("Warning", validationError.value);
        return;
      }
      ChainNeedsLastCheck(Blank(formData.name), Blank(formData.email) || !Contains(formData.email, "@"),
                          Blank(formData.telephone), Blank(formData.occupation), Blank(formData.salary),
                          formData.paysheet.None?);
      alert := SendApplication(service, upload);
    }

    /** The `try`/`finally` part of `handleSubmit`, run once the form has passed validation. */
    method SendApplication(service: LoanService.LoanRepository, upload: LoanService.Uploader) returns (alert: Alert)
      requires service.Valid() && formData.paysheet.Some?
      modifies this, service
      ensures service.Valid() && !isSubmitting
      ensures Sent(old(formData), alert, formData, old(service.docs), service.docs,
                                                      old(service.nextId), service.nextId, old(service.clock), service.clock, upload)
    {
      isSubmitting := true;
      var result := service.SubmitLoanApplication(formData, upload);
      if result.Success? {
        alert := Alert("Success!", SuccessMessage);
        formData := EmptyForm;
        assert service.docs.Keys == old(service.docs.Keys) + {result.value};
      } else {
        alert := Alert("Error", FailureMessage);
      }
      isSubmitting := false;
    }
  }

  /**
   * The outcome of sending a validated `form` (one with a paysheet): when the upload succeeds,
   * the success alert, a cleared form and one new document under the next id holding the
   * form's fields and the uploaded attachment, stamped with the advanced clock, the other
   * documents untouched and the counter advanced; when it fails, the error alert, the form
   * kept and the collection, the counter and the clock unchanged.
   */
  ghost predicate Sent(form: LoanFormData, alert: Alert, formAfter: LoanFormData,
                       before: map<string, StoredApplication>, after: map<string, StoredApplication>,
                       nextId: nat, nextIdAfter: nat, clock: nat, clockAfter: nat, upload: LoanService.Uploader)
  {
    form.paysheet.Some? &&
    var file := form.paysheet.value;
    if upload(file.uri, file.name).Success? then
      && alert == Alert("Success!", SuccessMessage) && formAfter == EmptyForm
      && var id := DocIds.IdOf(nextId);
      && id !in before && after.Keys == before.Keys + {id} && after == before[id := after[id]]
      && var d := after[id];
      && d.name == form.name && d.email == form.email && d.telephone == form.telephone
      && d.occupation == form.occupation && d.salary == form.salary
      && d.paysheetUrl == Some(upload(file.uri, file.name).value) && d.paysheetName == Some(file.name)
      && d.createdAt == d.updatedAt == clockAfter == clock + 1 && nextIdAfter == nextId + 1
    else
      && alert == Alert("Error", FailureMessage) && formAfter == form && after == before
      && nextIdAfter == nextId && clockAfter == clock
  }
}

=== FILE: doc_ids.dfy ===
/**
 * Record identifiers. The document database assigns an id on creation; here the
 * `n`th record created gets the decimal numeral of `n`, so ids are never reused.
 */
module DocIds {
  import opened Results

  function DigitChar(d: nat): char
    requires d < 10
  {
    "0123456789"[d]
  }

  function DigitValue(c: char): Option<nat>
  {
    if '0' <= c <= '9' then Some(c as int - '0' as int) else None
  }

  /** The decimal numeral of `n`. */
  function DecimalString(n: nat): string
    decreases n
  {
    if n < 10 then [DigitChar(n)] else DecimalString(n / 10) + [DigitChar(n % 10)]
  }

  /** Reads a decimal numeral; `None` for anything else. */
  function ParseDecimal(s: string): Option<nat>
    decreases |s|
  {
    if s == [] then None
    else match DigitValue(s[|s| - 1])
      case None => None
      case Some(d) =>
        if |s| == 1 then Some(d)
        else match ParseDecimal(s[..|s| - 1])
          case None => None
          case Some(m) => Some(10 * m + d)
  }

  /** Reading a numeral back gives the number. */
  lemma {:induction false} ParseDecimalString(n: nat)
    ensures ParseDecimal(DecimalString(n)) == Some(n)
    decreases n
  {
    if n >= 10 {
      ParseDecimalString(n / 10);
      ParseDecimalStep(n);
    } else {
      assert DigitValue(DigitChar(n)) == Some(n);
    }
  }

  /** The inductive step of `ParseDecimalString`: one more digit after a numeral that reads back. */
  lemma ParseDecimalStep(n: nat)
    requires n >= 10 && ParseDecimal(DecimalString(n / 10)) == Some(n / 10)
    ensures ParseDecimal(DecimalString(n)) == Some(n)
  {
    var q, d := n / 10, n % 10;
    var front := DecimalString(q);
    assert front != [];
    assert DecimalString(n) == front + [DigitChar(d)];
    assert DigitValue(DigitChar(d)) == Some(d);
    ParseDecimalSnoc(front, DigitChar(d));
  }

  /** A numeral with one more digit after it reads as ten times as much plus that digit. */
  lemma ParseDecimalSnoc(front: string, c: char)
    requires front != [] && DigitValue(c).Some?
    ensures ParseDecimal(front + [c]) ==
      match ParseDecimal(front)
      case None => None
      case Some(m) => Some(10 * m + DigitValue(c).value)
  {
    var s := front + [c];
    assert s[..|s| - 1] == front;
    assert s[|s| - 1] == c;
  }

  /** The id of the `n`th record created. */
  function IdOf(n: nat): string
  {
    DecimalString(n)
  }

  /** Different creations get different ids. */
  lemma IdsDistinct(m: nat, n: nat)
    requires m != n
    ensures IdOf(m) != IdOf(n)
  {
    ParseDecimalString(m);
    ParseDecimalString(n);
  }
}

=== FILE: edit_screen.dfy ===
/** The dashboard's edit screen: loading a record into the form, its validator and the update handler. */
module EditScreen {
  import opened Results
  import opened Text
  import opened LoanTypes
  import opened FormChecks
  import LoanService
  import ApplyScreen

  const NameError: string := "Please enter the name"
  const EmailError: string := "Please enter a valid email address"
  const TelephoneError: string := "Please enter the telephone number"
  const OccupationError: string := "Please enter the occupation"
  const SalaryError: string := "Please enter the salary"

  /** `validateForm` of the edit screen: the five text checks only; the paysheet is never required. */
  function ValidateForm(form: LoanFormData): Option<string>
  {
    if Blank(form.name) then Some(NameError)
    else if Blank(form.email) || !Contains(form.email, "@") then Some(EmailError)
    else if Blank(form.telephone) then Some(TelephoneError)
    else if Blank(form.occupation) then Some(OccupationError)
    else if Blank(form.salary) then Some(SalaryError)
    else None
  }

  /** The edit form's checks in declaration order. */
  function EditChecks(form: LoanFormData): seq<Check>
  {
    [ Check(!Blank(form.name), NameError),
      Check(!Blank(form.email) && Contains(form.email, "@"), EmailError),
      Check(!Blank(form.telephone), TelephoneError),
      Check(!Blank(form.occupation), OccupationError),
      Check(!Blank(form.salary), SalaryError) ]
  }

  /** The edit validator reports the first failing check in declaration order, and `null` when none fails. */
  lemma ValidateFormIsFirstFailure(form: LoanFormData)
    ensures ValidateForm(form) == FirstFailure(EditChecks(form))
  {
    FirstFailureOfFive(Check(!Blank(form.name), NameError),
                       Check(!Blank(form.email) && Contains(form.email, "@"), EmailError),
                       Check(!Blank(form.telephone), TelephoneError),
                       Check(!Blank(form.occupation), OccupationError),
                       Check(!Blank(form.salary), SalaryError));
  }

  /**
   * The two validators run the same text checks in the same order: the edit screen
   * accepts a form exactly when the submit screen accepts it or objects only to the
   * missing paysheet, and both reject the same forms for a text field.
   */
  lemma EditAcceptsIff(form: LoanFormData)
    ensures ValidateForm(form).None? <==>
      ApplyScreen.ValidateForm(form).None? || ApplyScreen.ValidateForm(form) == Some(ApplyScreen.PaysheetError)
    ensures ValidateForm(form).Some? <==>
      ApplyScreen.ValidateForm(form).Some? && ApplyScreen.ValidateForm(form) != Some(ApplyScreen.PaysheetError)
  {
    MessagesDiffer();
    ChainsAgree(Blank(form.name), Blank(form.email) || !Contains(form.email, "@"), Blank(form.telephone),
                Blank(form.occupation), Blank(form.salary), form.paysheet.None?);
  }

  /**
   * The two validators' `if` chains over the same failing conditions: the five-step chain
   * passes exactly when the six-step one passes or stops at its last step.
   */
  lemma ChainsAgree(n: bool, e: bool, t: bool, o: bool, s: bool, p: bool)
    requires ApplyScreen.PaysheetError != ApplyScreen.NameError && ApplyScreen.PaysheetError != ApplyScreen.EmailError
    requires ApplyScreen.PaysheetError != ApplyScreen.TelephoneError && ApplyScreen.PaysheetError != ApplyScreen.OccupationError
    requires ApplyScreen.PaysheetError != ApplyScreen.SalaryError
    ensures var edit := if n then Some(NameError) else if e then Some(EmailError) else if t then Some(TelephoneError)
                        else if o then Some(OccupationError) else if s then Some(SalaryError) else None;
            var submit := if n then Some(ApplyScreen.NameError) else if e then Some(ApplyScreen.EmailError)
                          else if t then Some(ApplyScreen.TelephoneError) else if o then Some(ApplyScreen.OccupationError)
                          else if s then Some(ApplyScreen.SalaryError) else if p then Some(ApplyScreen.PaysheetError) else None;
            edit.None? <==> submit.None? || submit == Some(ApplyScreen.PaysheetError)
  {
  }

  /** The paysheet message is none of the submit screen's text-field messages. */
  lemma MessagesDiffer()
    ensures ApplyScreen.PaysheetError != ApplyScreen.NameError && ApplyScreen.PaysheetError != ApplyScreen.EmailError
    ensures ApplyScreen.PaysheetError != ApplyScreen.TelephoneError && ApplyScreen.PaysheetError != ApplyScreen.OccupationError
    ensures ApplyScreen.PaysheetError != ApplyScreen.SalaryError
  {
    assert |ApplyScreen.PaysheetError| == 33;
  }

  /** The edit validator's verdict does not depend on the attachment. */
  lemma PaysheetIrrelevant(form: LoanFormData, paysheet: Option<PaysheetFile>)
    ensures ValidateForm(form.(paysheet := paysheet)) == ValidateForm(form)
  {
    var changed := form.(paysheet := paysheet);
    assert changed.name == form.name && changed.email == form.email && changed.telephone == form.telephone;
    assert changed.occupation == form.occupation && changed.salary == form.salary;
  }

  /** The edit screen's state: the record's id, the form, the current attachment's name and the busy flags. */
  class EditApplicationScreen {
    const id: string
    var formData: LoanFormData
    var currentPaysheet: string
    var isLoading: bool
    var isUpdating: bool
    /** Whether `router.back()` has been called. */
    var navigatedBack: bool

    constructor (id: string)
      ensures this.id == id && formData == EmptyForm && currentPaysheet == ""
      ensures isLoading && !isUpdating && !navigatedBack
    {
      this.id := id;
      formData := EmptyForm;
      currentPaysheet := "";
      isLoading := true;
      isUpdating := false;
      navigatedBack := false;
    }

    /**
     * `loadApplication`: an existing record's five text fields are copied into the form
     * (no new attachment picked) and its attachment name is shown; a missing record
     * sends the screen back. Loading ends either way.
     */
    method LoadApplication(service: LoanService.LoanRepository)
      modifies this
      ensures !isLoading && isUpdating == old(isUpdating)
      ensures id in service.docs ==>
        var d := service.docs[id];
        && formData == LoanFormData(d.name, d.email, d.telephone, d.occupation, d.salary, None)
        && currentPaysheet == LoanService.OrEmpty(d.paysheetName)
        && navigatedBack == old(navigatedBack)
      ensures id !in service.docs ==>
        navigatedBack && formData == old(formData) && currentPaysheet == old(currentPaysheet)
    {
      var application := service.GetLoanApplication(id);
      if application.Some? {
        var app := application.value;
        formData := LoanFormData(app.name, app.email, app.telephone, app.occupation, app.salary, None);
        currentPaysheet := app.paysheetName;
      } else {
        navigatedBack := true;
      }
      isLoading := false;
    }

    /**
     * `handleUpdate`: a form that fails validation changes nothing; otherwise the record
     * is updated and, when the update succeeds, the screen goes back.
     */
    method HandleUpdate(service: LoanService.LoanRepository, upload: LoanService.Uploader)
      requires service.Valid()
      modifies this, service
      ensures service.Valid() && formData == old(formData)
      ensures currentPaysheet == old(currentPaysheet) && isLoading == old(isLoading)
      ensures ValidateForm(formData).Some? ==>
        service.docs == old(service.docs) && service.nextId == old(service.nextId) && service.clock == old(service.clock) &&
        navigatedBack == old(navigatedBack) && isUpdating == old(isUpdating)
      ensures ValidateForm(formData).None? ==>
        !isUpdating && service.nextId == old(service.nextId) &&
        Updated(id, formData, old(service.docs), service.docs, old(service.clock), service.clock,
                old(navigatedBack), navigatedBack, upload)
    {
      var validationError := ValidateForm(formData);
      if validationError.Some? {
        return;
      }
      SendUpdate(service, upload);
    }

    /** The `try`/`finally` part of `handleUpdate`, run once the form has passed validation. */
    method SendUpdate(service: LoanService.LoanRepository, upload: LoanService.Uploader)
      requires service.Valid()
      modifies this, service
      ensures service.Valid() && formData == old(formData) && !isUpdating
      ensures currentPaysheet == old(currentPaysheet) && isLoading == old(isLoading)
      ensures service.nextId == old(service.nextId) &&
        Updated(id, formData, old(service.docs), service.docs, old(service.clock), service.clock,
                old(navigatedBack), navigatedBack, upload)
    {
      isUpdating := true;
      var result := service.UpdateLoanApplication(id, formData, upload);
      if result.Success? {
        navigatedBack := true;
      }
      isUpdating := false;
    }
  }

  /**
   * The outcome of sending a validated `form` for record `id`: when the record exists and
   * the new paysheet, if any, uploads, the record holds the form's five text fields and either
   * the new attachment's URL and name or the old ones, keeps its creation time, is stamped with
   * the advanced clock (later than its old update time), no other record changes and the screen
   * goes back; otherwise the collection, the clock and the screen's place are as they were.
   */
  ghost predicate Updated(id: string, form: LoanFormData,
                          before: map<string, StoredApplication>, after: map<string, StoredApplication>,
                          clockBefore: nat, clockAfter: nat, backBefore: bool, backAfter: bool,
                          upload: LoanService.Uploader)
  {
    if id in before && (form.paysheet.None? || upload(form.paysheet.value.uri, form.paysheet.value.name).Success?) then
      && backAfter && id in after && after == before[id := after[id]]
      && var d := after[id];
      && d.name == form.name && d.email == form.email && d.telephone == form.telephone
      && d.occupation == form.occupation && d.salary == form.salary
      && d.createdAt == before[id].createdAt && d.updatedAt > before[id].updatedAt
      && d.updatedAt == clockAfter == clockBefore + 1
      && (form.paysheet.Some? ==>
            d.paysheetUrl == Some(upload(form.paysheet.value.uri, form.paysheet.value.name).value) &&
            d.paysheetName == Some(form.paysheet.value.name))
      && (form.paysheet.None? ==>
            d.paysheetUrl == Some(LoanService.OrEmpty(before[id].paysheetUrl)) &&
            d.paysheetName == Some(LoanService.OrEmpty(before[id].paysheetName)))
    else
      after == before && clockAfter == clockBefore && backAfter == backBefore
  }
}

=== FILE: form_checks.dfy ===
/** The shape both form validators share: ordered checks, the first failure's message wins. */
module FormChecks {
  import opened Results
  import opened Text

  /** One validation step: whether it passes, and the message shown when it does not. */
  datatype Check = Check(passes: bool, message: string)

  /** `!s.trim()`: the field holds nothing but white space. */
  predicate Blank(s: string)
  {
    Trim(s) == ""
  }

  /** A field is blank exactly when every character of it is white space. */
  lemma BlankIff(s: string)
    ensures Blank(s) <==> forall i :: 0 <= i < |s| ==> IsWhiteSpace(s[i])
  {
    TrimEmptyIff(s);
  }

  /** The message of the first failing check; `None` (the source's `null`) when every check passes. */
  function FirstFailure(checks: seq<Check>): (r: Option<string>)
    ensures r.None? <==> forall i :: 0 <= i < |checks| ==> checks[i].passes
    ensures r.Some? ==> exists i :: 0 <= i < |checks| && !checks[i].passes && r.value == checks[i].message &&
                                    forall j :: 0 <= j < i ==> checks[j].passes
  {
    if checks == [] then None
    else if !checks[0].passes then Some(checks[0].message)
    else FirstFailure(checks[1..])
  }

  /** A failing head check decides; a passing one defers to the rest. */
  lemma FirstFailureCons(c: Check, rest: seq<Check>)
    ensures FirstFailure([c] + rest) == if !c.passes then Some(c.message) else FirstFailure(rest)
  {
    assert ([c] + rest)[1..] == rest;
  }

  /** Five checks in a row behave as the `if` chain that runs them in order. */
  lemma FirstFailureOfFive(c0: Check, c1: Check, c2: Check, c3: Check, c4: Check)
    ensures FirstFailure([c0, c1, c2, c3, c4]) ==
      if !c0.passes then Some(c0.message)
      else if !c1.passes then Some(c1.message)
      else if !c2.passes then Some(c2.message)
      else if !c3.passes then Some(c3.message)
      else if !c4.passes then Some(c4.message)
      else None
  {
    FirstFailureCons(c4, []);
    FirstFailureCons(c3, [c4]);
    FirstFailureCons(c2, [c3, c4]);
    FirstFailureCons(c1, [c2, c3, c4]);
    FirstFailureCons(c0, [c1, c2, c3, c4]);
    assert [c0, c1, c2, c3, c4] == [c0] + [c1, c2, c3, c4];
  }

  /** Six checks in a row behave as the `if` chain that runs them in order. */
  lemma FirstFailureOfSix(c0: Check, c1: Check, c2: Check, c3: Check, c4: Check, c5: Check)
    ensures FirstFailure([c0, c1, c2, c3, c4, c5]) ==
      if !c0.passes then Some(c0.message)
      else if !c1.passes then Some(c1.message)
      else if !c2.passes then Some(c2.message)
      else if !c3.passes then Some(c3.message)
      else if !c4.passes then Some(c4.message)
      else if !c5.passes then Some(c5.message)
      else None
  {
    FirstFailureCons(c5, []);
    FirstFailureCons(c4, [c5]);
    FirstFailureCons(c3, [c4, c5]);
    FirstFailureCons(c2, [c3, c4, c5]);
    FirstFailureCons(c1, [c2, c3, c4, c5]);
    FirstFailureCons(c0, [c1, c2, c3, c4, c5]);
    assert [c0, c1, c2, c3, c4, c5] == [c0] + [c1, c2, c3, c4, c5];
  }
}

=== FILE: loan_service.dfy ===
/**
 * The record repository: submit, list, update, delete and get-one over the
 * `loanApplications` collection, with the paysheet upload done before any write.
 */
module LoanService {
  import opened Results
  import opened LoanTypes
  import DocIds

  const NotFoundMessage: string := "Application not found"
  const UploadFailurePrefix: string := "Cloudinary upload failed: "

  /** The two ways a service call fails. */
  datatype ServiceError = UploadFailed(message: string) | NotFound(message: string)

  /**
   * The object-store upload endpoint, as seen by the service: given a file's location
   * and name, either the `secure_url` of the stored asset or the text of the error response.
   */
  type Uploader = (string, string) -> Result<string, string>

  /** `uploadToCloudinary`: the upload, with a failure turned into the service's error. */
  function UploadToCloudinary(file: PaysheetFile, upload: Uploader): Result<string, ServiceError>
  {
    match upload(file.uri, file.name)
    case Success(url) => Success(url)
    case Failure(text) => Failure(UploadFailed(UploadFailurePrefix + text))
  }

  /** `value || ''` on an optional text field. */
  function OrEmpty(field: Option<string>): string
  {
    field.GetOr("")
  }

  /** A stored document as `getLoanApplications` and `getLoanApplication` return it. */
  function ToLoanApplication(id: string, d: StoredApplication): LoanApplication
  {
    LoanApplication(id, d.name, d.email, d.telephone, d.occupation, d.salary,
                    OrEmpty(d.paysheetUrl), OrEmpty(d.paysheetName), d.createdAt, d.updatedAt)
  }

  /** Ordered by creation time, newest first. */
  predicate NewestFirst(apps: seq<LoanApplication>)
  {
    forall i, j :: 0 <= i < j < |apps| ==> apps[i].createdAt >= apps[j].createdAt
  }

  /** The records of the documents whose ids are in `keys`. */
  ghost function ListingOf(docs: map<string, StoredApplication>, keys: set<string>): set<LoanApplication>
  {
    set id | id in keys && id in docs :: ToLoanApplication(id, docs[id])
  }

  /** Every record of the collection, once each. */
  ghost function Listing(docs: map<string, StoredApplication>): set<LoanApplication>
  {
    ListingOf(docs, docs.Keys)
  }

  /** Adding one more id to the listed keys adds exactly its record. */
  lemma ListingGrows(docs: map<string, StoredApplication>, keys: set<string>, id: string)
    requires id in docs && id !in keys
    ensures multiset(ListingOf(docs, keys + {id})) ==
            multiset(ListingOf(docs, keys)) + multiset{ToLoanApplication(id, docs[id])}
  {
    var x := ToLoanApplication(id, docs[id]);
    assert ListingOf(docs, keys + {id}) == ListingOf(docs, keys) + {x};
    assert x !in ListingOf(docs, keys);
  }

  /** No two records were created at the same time. */
  predicate DistinctCreation(apps: seq<LoanApplication>)
  {
    forall i, j :: 0 <= i < j < |apps| ==> apps[i].createdAt != apps[j].createdAt
  }

  /**
   * The newest-first order is unique: two orderings of the same records agree when no
   * two of the records were created at the same time.
   */
  lemma {:induction false} NewestFirstUnique(s: seq<LoanApplication>, t: seq<LoanApplication>)
    requires NewestFirst(s) && NewestFirst(t) && multiset(s) == multiset(t) && DistinctCreation(t)
    ensures s == t
    decreases |s|
  {
    if s == [] {
      assert |multiset(t)| == 0;
    } else {
      SameNewest(s, t);
      SameAfterNewest(s, t);
      NewestFirstUnique(s[1..], t[1..]);
      assert s == [s[0]] + s[1..] && t == [t[0]] + t[1..];
    }
  }

  /** Both orderings start with the same, newest, record. */
  lemma SameNewest(s: seq<LoanApplication>, t: seq<LoanApplication>)
    requires NewestFirst(s) && NewestFirst(t) && multiset(s) == multiset(t) && DistinctCreation(t)
    requires s != []
    ensures t != [] && s[0] == t[0]
  {
    assert s[0] in multiset(t);
    var k :| 0 <= k < |t| && t[k] == s[0];
    assert t[0] in multiset(s);
    var m :| 0 <= m < |s| && s[m] == t[0];
    assert s[0].createdAt >= s[m].createdAt;
    assert t[0].createdAt >= t[k].createdAt;
    assert k == 0;
  }

  /** With the same first record taken off, what remains of both orderings still qualifies. */
  lemma SameAfterNewest(s: seq<LoanApplication>, t: seq<LoanApplication>)
    requires NewestFirst(s) && NewestFirst(t) && multiset(s) == multiset(t) && DistinctCreation(t)
    requires s != [] && t != [] && s[0] == t[0]
    ensures NewestFirst(s[1..]) && NewestFirst(t[1..]) && multiset(s[1..]) == multiset(t[1..])
    ensures DistinctCreation(t[1..])
  {
    MultisetTail(s);
    MultisetTail(t);
  }

  /** Taking off the first element takes one copy of it out of the multiset. */
  lemma MultisetTail<T>(s: seq<T>)
    requires s != []
    ensures multiset(s[1..]) == multiset(s) - multiset{s[0]}
  {
    assert s == [s[0]] + s[1..];
  }

  /** Every record of a listing is a stored document, read back under its own id. */
  lemma ListedAreStored(docs: map<string, StoredApplication>, apps: seq<LoanApplication>)
    requires multiset(apps) == multiset(Listing(docs))
    ensures forall i :: 0 <= i < |apps| ==> apps[i].id in docs && apps[i] == ToLoanApplication(apps[i].id, docs[apps[i].id])
  {
    forall i | 0 <= i < |apps|
      ensures apps[i].id in docs && apps[i] == ToLoanApplication(apps[i].id, docs[apps[i].id])
    {
      assert apps[i] in multiset(Listing(docs));
    }
  }

  /** A collection of three documents lists exactly their three records. */
  lemma ListingOfThree(docs: map<string, StoredApplication>, a: string, b: string, c: string)
    requires docs.Keys == {a, b, c} && a != b && a != c && b != c
    ensures multiset(Listing(docs)) ==
            multiset([ToLoanApplication(c, docs[c]), ToLoanApplication(b, docs[b]), ToLoanApplication(a, docs[a])])
  {
    ListingGrows(docs, {}, a);
    ListingGrows(docs, {a}, b);
    ListingGrows(docs, {a, b}, c);
    assert ListingOf(docs, {}) == {};
    assert {a} + {b} == {a, b} && {a, b} + {c} == {a, b, c};
  }

  /** A newest-first listing of three documents created one after another is the reverse of their creation order. */
  lemma ListingOfThreeInOrder(docs: map<string, StoredApplication>, apps: seq<LoanApplication>, a: string, b: string, c: string)
    requires docs.Keys == {a, b, c} && a != b && a != c && b != c
    requires docs[a].createdAt < docs[b].createdAt < docs[c].createdAt
    requires multiset(apps) == multiset(Listing(docs)) && NewestFirst(apps)
    ensures apps == [ToLoanApplication(c, docs[c]), ToLoanApplication(b, docs[b]), ToLoanApplication(a, docs[a])]
  {
    ListingOfThree(docs, a, b, c);
    NewestFirstUnique(apps, [ToLoanApplication(c, docs[c]), ToLoanApplication(b, docs[b]), ToLoanApplication(a, docs[a])]);
  }

  /** Exchanges two neighbouring records. */
  method SwapWithPrevious(a: array<LoanApplication>, j: int)
    requires 0 < j < a.Length
    modifies a
    ensures a[j - 1] == old(a[j]) && a[j] == old(a[j - 1])
    ensures forall m :: 0 <= m < a.Length && m != j - 1 && m != j ==> a[m] == old(a[m])
    ensures multiset(a[..]) == multiset(old(a[..]))
  {
    a[j - 1], a[j] := a[j], a[j - 1];
  }

  /** `applications.sort((a, b) => b.createdAt - a.createdAt)`: in place, newest first. */
  method SortNewestFirst(a: array<LoanApplication>)
    modifies a
    ensures NewestFirst(a[..])
    ensures multiset(a[..]) == multiset(old(a[..]))
  {
    var i := 0;
    while i < a.Length
      invariant 0 <= i <= a.Length
      invariant forall p, q :: 0 <= p < q < i ==> a[p].createdAt >= a[q].createdAt
      invariant multiset(a[..]) == multiset(old(a[..]))
    {
      var j := i;
      while j > 0 && a[j - 1].createdAt < a[j].createdAt
        invariant 0 <= j <= i
        invariant forall p, q :: 0 <= p < q <= i && q != j ==> a[p].createdAt >= a[q].createdAt
        invariant multiset(a[..]) == multiset(old(a[..]))
      {
        SwapWithPrevious(a, j);
        j := j - 1;
      }
      i := i + 1;
    }
  }

  /** The `loanApplications` collection, with the id counter and the clock the database supplies. */
  class LoanRepository {
    var docs: map<string, StoredApplication>
    var nextId: nat
    var clock: nat

    /**
     * Every id was issued by the counter before `nextId`; every document carries both
     * attachment fields and timestamps with `createdAt <= updatedAt <= clock`.
     */
    ghost predicate Valid()
      reads this
    {
      && (forall id | id in docs :: DocIds.ParseDecimal(id).Some? && DocIds.ParseDecimal(id).value < nextId)
      && (forall id | id in docs :: docs[id].createdAt <= docs[id].updatedAt <= clock)
      && (forall id | id in docs :: docs[id].paysheetUrl.Some? && docs[id].paysheetName.Some?)
    }

    /** An empty collection. */
    constructor ()
      ensures Valid() && docs == map[] && nextId == 0 && clock == 0
    {
      docs := map[];
      nextId := 0;
      clock := 0;
    }

    /**
     * `submitLoanApplication`: upload the paysheet, if any, then add the document.
     * A failed upload adds nothing.
     */
    method SubmitLoanApplication(form: LoanFormData, upload: Uploader) returns (r: Result<string, ServiceError>)
      requires Valid()
      modifies this
      ensures Valid()
      ensures r.Success? <==> form.paysheet.None? || upload(form.paysheet.value.uri, form.paysheet.value.name).Success?
      ensures r.Failure? ==> r.error.UploadFailed? && docs == old(docs) && nextId == old(nextId) && clock == old(clock)
      ensures r.Success? ==> r.value !in old(docs) && r.value == DocIds.IdOf(old(nextId)) && nextId == old(nextId) + 1
      ensures r.Success? ==> clock == old(clock) + 1 && r.value in docs && docs == old(docs)[r.value := docs[r.value]]
      ensures r.Success? ==> var d := docs[r.value];
        && d.name == form.name && d.email == form.email && d.telephone == form.telephone
        && d.occupation == form.occupation && d.salary == form.salary
        && d.createdAt == d.updatedAt == clock
        && (form.paysheet.None? ==> d.paysheetUrl == Some("") && d.paysheetName == Some(""))
        && (form.paysheet.Some? ==>
              d.paysheetUrl == Some(upload(form.paysheet.value.uri, form.paysheet.value.name).value) &&
              d.paysheetName == Some(form.paysheet.value.name))
    {
      var paysheetUrl := "";
      var paysheetName := "";
      if form.paysheet.Some? {
        paysheetName := form.paysheet.value.name;
        var uploaded := UploadToCloudinary(form.paysheet.value, upload);
        if uploaded.Failure? {
          r := Failure(uploaded.error);
          return;
        }
        paysheetUrl := uploaded.value;
      }
      clock := clock + 1;
      var id := DocIds.IdOf(nextId);
      DocIds.ParseDecimalString(nextId);
      var loanData := StoredApplication(form.name, form.email, form.telephone, form.occupation, form.salary,
                                        Some(paysheetUrl), Some(paysheetName), clock, clock);
      docs := docs[id := loanData];
      nextId := nextId + 1;
      r := Success(id);
    }

    /** `getLoanApplications`: every record, attachment fields defaulted, newest first. */
    method GetLoanApplications() returns (apps: seq<LoanApplication>)
      ensures multiset(apps) == multiset(Listing(docs))
      ensures |apps| == |docs|
      ensures forall i :: 0 <= i < |apps| ==> apps[i].id in docs && apps[i] == ToLoanApplication(apps[i].id, docs[apps[i].id])
      ensures NewestFirst(apps)
    {
      var applications := ReadAll();
      var a := new LoanApplication[|applications|](i requires 0 <= i < |applications| => applications[i]);
      assert a[..] == applications;
      SortNewestFirst(a);
      apps := a[..];
      ListedAreStored(docs, apps);
    }

    /** The query snapshot of `getLoanApplications`: every document's record, once each, in no particular order. */
    method ReadAll() returns (applications: seq<LoanApplication>)
      ensures multiset(applications) == multiset(Listing(docs))
      ensures |applications| == |docs|
    {
      var pending := docs.Keys;
      ghost var listed: set<string> := {};
      applications := [];
      while pending != {}
        invariant listed + pending == docs.Keys && listed !! pending
        invariant multiset(applications) == multiset(ListingOf(docs, listed))
        invariant |applications| == |listed|
        decreases |pending|
      {
        var id :| id in pending;
        ListingGrows(docs, listed, id);
        applications := applications + [ToLoanApplication(id, docs[id])];
        pending := pending - {id};
        listed := listed + {id};
      }
      assert listed == docs.Keys;
    }

    /**
     * `updateLoanApplication`: fails for a missing id; otherwise uploads a new paysheet
     * if one is given, then replaces the five text fields and the attachment fields and
     * refreshes `updatedAt`. A failed upload changes nothing.
     */
    method UpdateLoanApplication(id: string, form: LoanFormData, upload: Uploader) returns (r: Result<(), ServiceError>)
      requires Valid()
      modifies this
      ensures Valid() && nextId == old(nextId)
      ensures id !in old(docs) ==> r == Failure(NotFound(NotFoundMessage))
      ensures r.Failure? && id in old(docs) ==> r.error.UploadFailed?
      ensures id in old(docs) ==>
        (r.Success? <==> form.paysheet.None? || upload(form.paysheet.value.uri, form.paysheet.value.name).Success?)
      ensures r.Failure? ==> docs == old(docs) && clock == old(clock)
      ensures r.Success? ==> id in old(docs) && id in docs && clock == old(clock) + 1 && docs == old(docs)[id := docs[id]]
      ensures r.Success? ==> var was, d := old(docs)[id], docs[id];
        && d.name == form.name && d.email == form.email && d.telephone == form.telephone
        && d.occupation == form.occupation && d.salary == form.salary
        && d.createdAt == was.createdAt && d.updatedAt == clock
        && (form.paysheet.None? ==>
              d.paysheetUrl == Some(OrEmpty(was.paysheetUrl)) && d.paysheetName == Some(OrEmpty(was.paysheetName)))
        && (form.paysheet.Some? ==>
              d.paysheetUrl == Some(upload(form.paysheet.value.uri, form.paysheet.value.name).value) &&
              d.paysheetName == Some(form.paysheet.value.name))
    {
      if id !in docs {
        r := Failure(NotFound(NotFoundMessage));
        return;
      }
      var existingData := docs[id];
      var paysheetUrl := OrEmpty(existingData.paysheetUrl);
      var paysheetName := OrEmpty(existingData.paysheetName);
      if form.paysheet.Some? {
        paysheetName := form.paysheet.value.name;
        var uploaded := UploadToCloudinary(form.paysheet.value, upload);
        if uploaded.Failure? {
          r := Failure(uploaded.error);
          return;
        }
        paysheetUrl := uploaded.value;
      }
      clock := clock + 1;
      var updateData := existingData.(
        name := form.name, email := form.email, telephone := form.telephone,
        occupation := form.occupation, salary := form.salary,
        paysheetUrl := Some(paysheetUrl), paysheetName := Some(paysheetName),
        updatedAt := clock);
      docs := docs[id := updateData];
      r := Success(());
    }

    /** `deleteLoanApplication`: removes the document, if there is one; the uploaded asset stays. */
    method DeleteLoanApplication(id: string)
      requires Valid()
      modifies this
      ensures Valid()
      ensures docs == old(docs) - {id} && nextId == old(nextId) && clock == old(clock)
    {
      docs := docs - {id};
    }

    /** `getLoanApplication`: the record, or `None` (the source's `null`) for a missing id. */
    method GetLoanApplication(id: string) returns (r: Option<LoanApplication>)
      ensures id !in docs ==> r == None
      ensures id in docs ==> r.Some? && r.value.id == id
      ensures id in docs ==> r == Some(ToLoanApplication(id, docs[id]))
    {
      if id in docs {
        var data := docs[id];
        r := Some(ToLoanApplication(id, data));
      } else {
        r := None;
      }
    }
  }

  /** An application with the given name and the other text fields filled in, without a paysheet. */
  function SampleForm(name: string): LoanFormData
  {
    LoanFormData(name, "applicant@example.com", "555-0100", "Engineer", "5000", None)
  }

  /** The document a submission of `SampleForm(name)` stores at time `time`. */
  function SampleDocument(name: string, time: nat): StoredApplication
  {
    StoredApplication(name, "applicant@example.com", "555-0100", "Engineer", "5000", Some(""), Some(""), time, time)
  }

  /** Submits `SampleForm(name)`, which needs no upload, and returns the new document's id. */
  method SubmitSample(repo: LoanRepository, name: string) returns (id: string)
    requires repo.Valid()
    modifies repo
    ensures repo.Valid() && repo.nextId == old(repo.nextId) + 1 && repo.clock == old(repo.clock) + 1
    ensures id == DocIds.IdOf(old(repo.nextId)) && repo.docs == old(repo.docs)[id := SampleDocument(name, repo.clock)]
  {
    var noUpload: Uploader := (uri, name) => Failure("no upload expected");
    var r := repo.SubmitLoanApplication(SampleForm(name), noUpload);
    id := r.value;
  }

  /**
   * Three applications submitted one after another into an empty collection, then
   * listed: the listing holds the three, newest first, with empty attachment fields.
   */
  method ListingScenario() returns (names: seq<string>, urls: seq<string>, fileNames: seq<string>)
    ensures names == ["Cyd", "Bea", "Ada"]
    ensures urls == ["", "", ""] && fileNames == ["", "", ""]
  {
    var repo := new LoanRepository();
    var a, b, c := SubmitThreeSamples(repo);
    var apps := repo.GetLoanApplications();
    ThreeSamplesListed(repo.docs, apps, a, b, c);
    names := [apps[0].name, apps[1].name, apps[2].name];
    urls := [apps[0].paysheetUrl, apps[1].paysheetUrl, apps[2].paysheetUrl];
    fileNames := [apps[0].paysheetName, apps[1].paysheetName, apps[2].paysheetName];
  }

  /** Submits the samples for Ada, Bea and Cyd, in that order, into an empty collection. */
  method SubmitThreeSamples(repo: LoanRepository) returns (a: string, b: string, c: string)
    requires repo.Valid() && repo.docs == map[] && repo.nextId == 0 && repo.clock == 0
    modifies repo
    ensures a != b && a != c && b != c && repo.docs.Keys == {a, b, c}
    ensures repo.docs[a] == SampleDocument("Ada", 1) && repo.docs[b] == SampleDocument("Bea", 2)
    ensures repo.docs[c] == SampleDocument("Cyd", 3)
  {
    a := SubmitSample(repo, "Ada");
    b := SubmitSample(repo, "Bea");
    c := SubmitSample(repo, "Cyd");
    DocIds.IdsDistinct(0, 1);
    DocIds.IdsDistinct(0, 2);
    DocIds.IdsDistinct(1, 2);
  }

  /** The listing of three samples stored at times 1, 2 and 3 names them newest first, with no attachments. */
  lemma ThreeSamplesListed(docs: map<string, StoredApplication>, apps: seq<LoanApplication>, a: string, b: string, c: string)
    requires a != b && a != c && b != c
    requires docs.Keys == {a, b, c}
    requires docs[a] == SampleDocument("Ada", 1) && docs[b] == SampleDocument("Bea", 2) && docs[c] == SampleDocument("Cyd", 3)
    requires multiset(apps) == multiset(Listing(docs)) && NewestFirst(apps)
    ensures |apps| == 3
    ensures apps[0].name == "Cyd" && apps[1].name == "Bea" && apps[2].name == "Ada"
    ensures forall i :: 0 <= i < 3 ==> apps[i].paysheetUrl == "" && apps[i].paysheetName == ""
  {
    ListingOfThreeInOrder(docs, apps, a, b, c);
  }
}

=== FILE: loan_types.dfy ===
/** The record shapes of the loan-application service. */
module LoanTypes {
  import opened Results

  /** A file picked on the device and not yet uploaded. */
  datatype PaysheetFile = PaysheetFile(uri: string, name: string, mimeType: string)

  /** What the applicant or the manager fills in; `paysheet` is the optional attachment. */
  datatype LoanFormData = LoanFormData(
    name: string,
    email: string,
    telephone: string,
    occupation: string,
    salary: string,
    paysheet: Option<PaysheetFile>)

  /** The five text fields cleared, no paysheet attached. */
  const EmptyForm := LoanFormData("", "", "", "", "", None)

  /**
   * One document of the `loanApplications` collection. The attachment fields are
   * optional in the record type, so a document may lack them; the timestamps are
   * readings of a logical clock.
   */
  datatype StoredApplication = StoredApplication(
    name: string,
    email: string,
    telephone: string,
    occupation: string,
    salary: string,
    paysheetUrl: Option<string>,
    paysheetName: Option<string>,
    createdAt: nat,
    updatedAt: nat)

  /** A record as the service hands it out: its id, and attachment fields defaulted to `''`. */
  datatype LoanApplication = LoanApplication(
    id: string,
    name: string,
    email: string,
    telephone: string,
    occupation: string,
    salary: string,
    paysheetUrl: string,
    paysheetName: string,
    createdAt: nat,
    updatedAt: nat)
}

=== FILE: pdf_urls.dfy ===
/**
 * The URL derivation engine: pure rewrites of a stored object-store URL into
 * view, download, mobile and embed variants, plus the two URL helpers.
 */
module PdfUrls {
  import opened Results
  import opened Text
  import UriComponent

  const Host: string := "cloudinary.com"
  const Marker: string := "/upload/"
  const ViewDirective: string := "fl_attachment:inline,f_auto,q_auto,w_1200,dpr_auto"
  const MobileDirective: string := "f_auto,q_auto:eco,w_800"
  const EmbedDirective: string := "f_auto,q_auto"
  const AttachmentFlag: string := "fl_attachment:"
  const DefaultDownloadName: string := "paysheet.pdf"
  const DefaultPdfName: string := "document.pdf"

  /**
   * The guard shared by the four generators: a non-empty URL that mentions the
   * object store's host and that `split("/upload/")` cuts into exactly two parts.
   */
  predicate Rewritable(url: string)
  {
    url != "" && Contains(url, Host) && |Split(url, Marker)| == 2
  }

  /** Where the first `/upload/` ends. */
  function MarkerEnd(url: string): (k: nat)
    requires Contains(url, Marker)
    ensures |Marker| <= k <= |url| && url[k - |Marker|..k] == Marker
  {
    IndexOf(url, Marker).value + |Marker|
  }

  /** The reference shape of a derived URL: `directive/` inserted right after the first `/upload/`. */
  function InsertAfterMarker(url: string, directive: string): string
    requires Contains(url, Marker)
  {
    var k := MarkerEnd(url);
    url[..k] + directive + "/" + url[k..]
  }

  /**
   * The body the four generators share: `${parts[0]}/upload/${directive}/${parts[1]}`
   * when the guard holds, the URL unchanged otherwise.
   */
  function Splice(url: string, directive: string): (r: string)
    ensures !Rewritable(url) ==> r == url
    ensures Rewritable(url) ==> Contains(url, Marker) && r == InsertAfterMarker(url, directive)
  {
    if url != "" && Contains(url, Host) then
      var parts := Split(url, Marker);
      if |parts| == 2 then
        SplitInTwo(url, Marker);
        parts[0] + Marker + directive + "/" + parts[1]
      else url
    else url
  }

  /** `generatePDFViewUrl`: inline display, automatic format and quality, width 1200. */
  function GeneratePdfViewUrl(url: string): (r: string)
    ensures !Rewritable(url) ==> r == url
    ensures Rewritable(url) ==> Contains(url, Marker) && r == InsertAfterMarker(url, ViewDirective)
  {
    Splice(url, ViewDirective)
  }

  /** The name in the download directive: the encoded file name, or `paysheet.pdf` when none is given. */
  function DownloadFileName(fileName: Option<string>): string
  {
    if fileName.Some? && fileName.value != "" then UriComponent.Encode(fileName.value) else DefaultDownloadName
  }

  /** `generatePDFDownloadUrl`: forces a download under the given file name. */
  function GeneratePdfDownloadUrl(url: string, fileName: Option<string>): (r: string)
    ensures !Rewritable(url) ==> r == url
    ensures Rewritable(url) ==> Contains(url, Marker) && r == InsertAfterMarker(url, AttachmentFlag + DownloadFileName(fileName))
  {
    Splice(url, AttachmentFlag + DownloadFileName(fileName))
  }

  /** `generateMobilePDFUrl`: economical quality, width 800, never a forced download. */
  function GenerateMobilePdfUrl(url: string): (r: string)
    ensures !Rewritable(url) ==> r == url
    ensures Rewritable(url) ==> Contains(url, Marker) && r == InsertAfterMarker(url, MobileDirective)
  {
    Splice(url, MobileDirective)
  }

  /** `generateEmbedPDFUrl`: automatic format and quality only. */
  function GenerateEmbedPdfUrl(url: string): (r: string)
    ensures !Rewritable(url) ==> r == url
    ensures Rewritable(url) ==> Contains(url, Marker) && r == InsertAfterMarker(url, EmbedDirective)
  {
    Splice(url, EmbedDirective)
  }

  /** `getOptimizedPDFUrl`: `''` for an empty URL, else the generator for `usage`, the view one by default. */
  function GetOptimizedPdfUrl(url: string, usage: string, fileName: Option<string>): (r: string)
    ensures url == "" ==> r == ""
    ensures url != "" && usage == "download" ==> r == GeneratePdfDownloadUrl(url, fileName)
    ensures url != "" && usage == "mobile" ==> r == GenerateMobilePdfUrl(url)
    ensures url != "" && usage == "embed" ==> r == GenerateEmbedPdfUrl(url)
    ensures url != "" && usage != "download" && usage != "mobile" && usage != "embed" ==> r == GeneratePdfViewUrl(url)
  {
    if url == "" then ""
    else if usage == "download" then GeneratePdfDownloadUrl(url, fileName)
    else if usage == "mobile" then GenerateMobilePdfUrl(url)
    else if usage == "embed" then GenerateEmbedPdfUrl(url)
    else GeneratePdfViewUrl(url)
  }

  /**
   * A generator changes the URL exactly when the guard holds, that is when the URL is
   * non-empty, names the host, and every occurrence of `/upload/` starts inside the
   * first one (an occurrence overlapping the first, as in `/upload/upload/`, does not
   * count as a second one for `split`).
   */
  lemma RewriteIff(url: string, directive: string)
    ensures Splice(url, directive) != url <==>
      url != "" && Contains(url, Host) && exists k: nat :: OnlyOccurrence(url, Marker, k)
  {
    SplitInTwo(url, Marker);
  }

  /** A URL that mentions `/upload/` exactly once, on the host, is rewritten. */
  lemma MarkerOnceIsRewritten(url: string, k: nat)
    requires Contains(url, Host)
    requires forall j: nat :: OccursAt(url, Marker, j) <==> j == k
    ensures Rewritable(url)
  {
    SplitOnceOccurring(url, Marker, k);
  }

  /** A URL without `/upload/`, or off the host, comes back unchanged from every generator. */
  lemma MalformedUnchanged(url: string, fileName: Option<string>)
    requires !Contains(url, Marker) || !Contains(url, Host)
    ensures GeneratePdfViewUrl(url) == url && GeneratePdfDownloadUrl(url, fileName) == url
    ensures GenerateMobilePdfUrl(url) == url && GenerateEmbedPdfUrl(url) == url
  {
    if Contains(url, Host) {
      SplitAbsent(url, Marker);
    }
  }

  /** A derived URL keeps everything up to the first `/upload/` and everything after it. */
  lemma {:induction false} DerivedKeepsPrefixAndSuffix(url: string, directive: string)
    requires Rewritable(url)
    ensures var parts := Split(url, Marker);
      var r := Splice(url, directive);
      |r| == |url| + |directive| + 1 &&
      r[..|parts[0]| + |Marker|] == parts[0] + Marker && r[|r| - |parts[1]|..] == parts[1]
  {
    SplitInTwo(url, Marker);
  }

  /** Different directives give different derived URLs. */
  lemma {:induction false} InsertionInjective(url: string, d1: string, d2: string)
    requires Contains(url, Marker) && d1 != d2
    ensures InsertAfterMarker(url, d1) != InsertAfterMarker(url, d2)
  {
    var k := MarkerEnd(url);
    var r1, r2 := InsertAfterMarker(url, d1), InsertAfterMarker(url, d2);
    if |d1| == |d2| {
      assert r1[k..k + |d1|] == d1;
      assert r2[k..k + |d2|] == d2;
    } else {
      assert |r1| != |r2|;
    }
  }

  /** The directive of a download never equals the view directive: an encoded name holds no comma. */
  lemma DownloadDirectiveIsNotView(fileName: Option<string>)
    ensures AttachmentFlag + DownloadFileName(fileName) != ViewDirective
  {
    var name := DownloadFileName(fileName);
    if |AttachmentFlag + name| == |ViewDirective| {
      assert ViewDirective[20] == ',';
      assert (AttachmentFlag + name)[20] == name[6];
      if fileName.Some? && fileName.value != "" {
        UriComponent.EncodeAlphabet(fileName.value);
        assert !UriComponent.IsUnreserved(',');
      }
    }
  }

  /** For a well-formed URL the four purposes give four different URLs. */
  lemma VariantsPairwiseDistinct(url: string, fileName: Option<string>)
    requires Rewritable(url)
    ensures var view, download := GeneratePdfViewUrl(url), GeneratePdfDownloadUrl(url, fileName);
      var mobile, embed := GenerateMobilePdfUrl(url), GenerateEmbedPdfUrl(url);
      view != download && view != mobile && view != embed &&
      download != mobile && download != embed && mobile != embed
  {
    var download := AttachmentFlag + DownloadFileName(fileName);
    DirectivesPairwiseDistinct(fileName);
    InsertionsDistinct(url, ViewDirective, download, MobileDirective, EmbedDirective);
  }

  /** The four directives are pairwise different, whatever the download name. */
  lemma DirectivesPairwiseDistinct(fileName: Option<string>)
    ensures var download := AttachmentFlag + DownloadFileName(fileName);
      ViewDirective != download && ViewDirective != MobileDirective && ViewDirective != EmbedDirective &&
      download != MobileDirective && download != EmbedDirective && MobileDirective != EmbedDirective
  {
    var download := AttachmentFlag + DownloadFileName(fileName);
    DownloadDirectiveIsNotView(fileName);
    assert ViewDirective[1] != MobileDirective[1] && ViewDirective[1] != EmbedDirective[1];
    assert download[1] != MobileDirective[1] && download[1] != EmbedDirective[1];
    assert |MobileDirective| != |EmbedDirective|;
  }

  /** Four pairwise different directives inserted into the same URL give four pairwise different URLs. */
  lemma InsertionsDistinct(url: string, d0: string, d1: string, d2: string, d3: string)
    requires Rewritable(url)
    requires d0 != d1 && d0 != d2 && d0 != d3 && d1 != d2 && d1 != d3 && d2 != d3
    ensures var u0, u1 := InsertAfterMarker(url, d0), InsertAfterMarker(url, d1);
      var u2, u3 := InsertAfterMarker(url, d2), InsertAfterMarker(url, d3);
      u0 != u1 && u0 != u2 && u0 != u3 && u1 != u2 && u1 != u3 && u2 != u3
  {
    InsertionInjective(url, d0, d1);
    InsertionInjective(url, d0, d2);
    InsertionInjective(url, d0, d3);
    InsertionInjective(url, d1, d2);
    InsertionInjective(url, d1, d3);
    InsertionInjective(url, d2, d3);
  }

  /** An occurrence wholly before or wholly after an insertion point survives the insertion. */
  lemma OccurrenceSurvivesInsertion(url: string, k: nat, inserted: string, pattern: string, h: nat)
    requires k <= |url| && OccursAt(url, pattern, h)
    requires h + |pattern| <= k || k <= h
    ensures Contains(url[..k] + inserted + url[k..], pattern)
  {
    var r := url[..k] + inserted + url[k..];
    if h + |pattern| <= k {
      assert r[h..h + |pattern|] == url[h..h + |pattern|];
      assert OccursAt(r, pattern, h);
    } else {
      assert r[h + |inserted|..h + |inserted| + |pattern|] == url[h..h + |pattern|];
      assert OccursAt(r, pattern, h + |inserted|);
    }
  }

  /** An occurrence of a pattern free of `c` cannot cover a position holding `c`. */
  lemma OccurrenceAvoids(url: string, pattern: string, h: nat, c: char, m: nat)
    requires OccursAt(url, pattern, h) && m < |url| && url[m] == c
    requires forall i :: 0 <= i < |pattern| ==> pattern[i] != c
    ensures !(h <= m < h + |pattern|)
  {
    assert url[h..h + |pattern|] == pattern;
  }

  /** Inserting after the marker keeps the host: the host cannot straddle the marker's final `/`. */
  lemma HostSurvivesInsertion(url: string, inserted: string)
    requires Contains(url, Marker) && Contains(url, Host)
    ensures Contains(url[..MarkerEnd(url)] + inserted + url[MarkerEnd(url)..], Host)
  {
    var k := MarkerEnd(url);
    var h := IndexOf(url, Host).value;
    assert url[k - 1] == Marker[|Marker| - 1];
    OccurrenceAvoids(url, Host, h, '/', k - 1);
    OccurrenceSurvivesInsertion(url, k, inserted, Host, h);
  }

  /** A derived URL still names the object store's host. */
  lemma DerivedStaysOnHost(url: string, directive: string)
    requires Rewritable(url)
    ensures Contains(Splice(url, directive), Host)
  {
    HostSurvivesInsertion(url, directive + "/");
    var k := MarkerEnd(url);
    assert InsertAfterMarker(url, directive) == url[..k] + (directive + "/") + url[k..];
  }

  /** `validatePDFUrl`, with the `new URL(...)` parse left to the predicate `parses`. */
  function ValidatePdfUrl(url: string, parses: string -> bool): (r: bool)
    ensures r ==> url != "" && parses(url)
    ensures r ==> Contains(url, ".pdf") || Contains(url, Host)
  {
    if url == "" then false
    else if !parses(url) then false
    else Contains(url, ".pdf") || Contains(url, Host)
  }

  /** Every derived variant of a well-formed URL that parses passes `validatePDFUrl`. */
  lemma DerivedUrlValid(url: string, directive: string, parses: string -> bool)
    requires Rewritable(url) && parses(Splice(url, directive))
    ensures ValidatePdfUrl(Splice(url, directive), parses)
  {
    DerivedStaysOnHost(url, directive);
  }

  /** `getPDFFileName`: the last `/`-segment, decoded, when it mentions `.pdf`; the fallback otherwise. */
  function GetPdfFileName(url: string, defaultName: string): string
  {
    if url == "" then defaultName
    else
      var segments := Split(url, "/");
      var fileName := segments[|segments| - 1];
      if fileName != "" && Contains(fileName, ".pdf") then
        match UriComponent.Decode(fileName)
        case Some(name) => name
        case None => defaultName
      else defaultName
  }

  /** `getPDFFileName(url)` with the default argument left out. */
  function GetPdfFileNameDefault(url: string): string
  {
    GetPdfFileName(url, DefaultPdfName)
  }

  /** A URL that does not mention `.pdf` gives the fallback name: its last segment cannot mention it either. */
  lemma FileNameFallback(url: string, defaultName: string)
    requires !Contains(url, ".pdf")
    ensures GetPdfFileName(url, defaultName) == defaultName
  {
    if url != "" {
      var segments := Split(url, "/");
      var fileName := segments[|segments| - 1];
      SplitFromJoin(url, "/", 0);
      LastPartIsSuffix(segments, "/");
      if Contains(fileName, ".pdf") {
        assert url == url[..|url| - |fileName|] + fileName + [];
        ContainsInConcat(url[..|url| - |fileName|], fileName, [], ".pdf");
      }
    }
  }

  /** The last part of a join is a suffix of it. */
  lemma {:induction false} LastPartIsSuffix(parts: seq<string>, sep: string)
    requires |parts| >= 1
    ensures var j := Join(parts, sep); var last := parts[|parts| - 1];
      |last| <= |j| && j[|j| - |last|..] == last
  {
    if |parts| > 1 {
      LastPartIsSuffix(parts[1..], sep);
    }
  }

  /** Splitting on a one-character separator ends with what follows its last occurrence. */
  lemma {:induction false} SplitFromLast(t: string, c: char, from: nat, n: nat)
    requires n < |t| && t[n] == c && from <= n + 1
    requires IndexOfFrom(t, [c], n + 1).None?
    ensures var parts := SplitFrom(t, [c], from); parts[|parts| - 1] == t[n + 1..]
    decreases |t| - from
  {
    var r := IndexOfFrom(t, [c], from);
    if r.Some? {
      OccursAtChar(t, c, r.value);
      SplitFromLast(t, c, r.value + 1, n);
      SplitFromLastPart(t, [c], from);
    } else if from <= n {
      OccursAtChar(t, c, n);
    }
  }

  /** A character that does not occur after position `n` is not found searching from `n + 1`. */
  lemma NotFoundAfter(t: string, c: char, n: nat)
    requires forall i :: n < i < |t| ==> t[i] != c
    ensures IndexOfFrom(t, [c], n + 1).None?
  {
    var r := IndexOfFrom(t, [c], n + 1);
    if r.Some? {
      OccursAtChar(t, c, r.value);
    }
  }

  /** An encoded name holds no `/`, so in `prefix/encoded` the last `/` is the one before it. */
  lemma {:induction false} NoSlashAfterPrefix(prefix: string, name: string)
    ensures IndexOfFrom(prefix + "/" + UriComponent.Encode(name), ['/'], |prefix| + 1).None?
  {
    var e := UriComponent.Encode(name);
    var url := prefix + "/" + e;
    UriComponent.EncodeAlphabet(name);
    assert !UriComponent.IsUnreserved('/');
    forall i | |prefix| < i < |url|
      ensures url[i] != '/'
    {
      assert url[i] == e[i - |prefix| - 1];
    }
    NotFoundAfter(url, '/', |prefix|);
  }

  /** The last `/`-segment of `prefix/e` is `e` when `e` holds no `/`. */
  lemma {:induction false} LastSegment(prefix: string, e: string)
    requires IndexOfFrom(prefix + "/" + e, ['/'], |prefix| + 1).None?
    ensures var segments := Split(prefix + "/" + e, "/"); segments[|segments| - 1] == e
  {
    var url := prefix + "/" + e;
    assert url[|prefix|] == '/';
    SplitFromLast(url, '/', 0, |prefix|);
    assert url[|prefix| + 1..] == e;
  }

  /** The file name of `prefix/encodeURIComponent(name)` is `name` again, when it mentions `.pdf`. */
  lemma FileNameRoundTrip(prefix: string, name: string, defaultName: string)
    requires Contains(name, ".pdf")
    ensures GetPdfFileName(prefix + "/" + UriComponent.Encode(name), defaultName) == name
  {
    NoSlashAfterPrefix(prefix, name);
    EncodedPdfName(name);
    FileNameAfterLastSlash(prefix, UriComponent.Encode(name), name, defaultName);
  }

  /** When no `/` follows `prefix/`, the file name is what follows it, decoded. */
  lemma FileNameAfterLastSlash(prefix: string, e: string, name: string, defaultName: string)
    requires IndexOfFrom(prefix + "/" + e, ['/'], |prefix| + 1).None?
    requires e != "" && Contains(e, ".pdf") && UriComponent.Decode(e) == Some(name)
    ensures GetPdfFileName(prefix + "/" + e, defaultName) == name
  {
    var url := prefix + "/" + e;
    assert url != "";
    LastSegment(prefix, e);
  }

  /** In `prefix/seg` with no `/` inside `seg`, the slash before `seg` is the last one. */
  lemma SlashFreeSegment(prefix: string, seg: string)
    requires forall i :: 0 <= i < |seg| ==> seg[i] != '/'
    ensures IndexOfFrom(prefix + "/" + seg, ['/'], |prefix| + 1).None?
  {
    var url := prefix + "/" + seg;
    assert url[|prefix| + 1..] == seg;
    forall i | |prefix| < i < |url|
      ensures url[i] != '/'
    {
      assert url[i] == url[|prefix| + 1..][i - |prefix| - 1];
    }
    NotFoundAfter(url, '/', |prefix|);
  }

  /** A last segment that does not mention `.pdf` gives the fallback, whatever the segments before it hold. */
  lemma LastSegmentWithoutPdf(prefix: string, seg: string, defaultName: string)
    requires forall i :: 0 <= i < |seg| ==> seg[i] != '/'
    requires !Contains(seg, ".pdf")
    ensures GetPdfFileName(prefix + "/" + seg, defaultName) == defaultName
  {
    SlashFreeSegment(prefix, seg);
    LastSegment(prefix, seg);
  }

  /** A last segment that `decodeURIComponent` rejects gives the fallback: the thrown error is caught. */
  lemma UndecodableLastSegment(prefix: string, seg: string, defaultName: string)
    requires forall i :: 0 <= i < |seg| ==> seg[i] != '/'
    requires UriComponent.Decode(seg).None?
    ensures GetPdfFileName(prefix + "/" + seg, defaultName) == defaultName
  {
    SlashFreeSegment(prefix, seg);
    LastSegment(prefix, seg);
  }

  /** `.pdf` in an earlier segment does not count: `https://x/a.pdf/b` gives `document.pdf`. */
  lemma EarlierPdfSegmentIgnored()
    ensures GetPdfFileNameDefault("https://x/a.pdf/b") == DefaultPdfName
  {
    assert "https://x/a.pdf/b" == "https://x/a.pdf" + "/" + "b";
    assert !Contains("b", ".pdf");
    LastSegmentWithoutPdf("https://x/a.pdf", "b", DefaultPdfName);
  }

  /** The encoding of a name mentioning `.pdf` is not empty, still mentions `.pdf`, and decodes to the name. */
  lemma EncodedPdfName(name: string)
    requires Contains(name, ".pdf")
    ensures var e := UriComponent.Encode(name);
      e != "" && Contains(e, ".pdf") && UriComponent.Decode(e) == Some(name)
  {
    assert UriComponent.IsUnreserved('.') && UriComponent.IsUnreserved('p');
    assert UriComponent.IsUnreserved('d') && UriComponent.IsUnreserved('f');
    UriComponent.EncodeKeepsUnreservedText(name, ".pdf");
    UriComponent.DecodeEncode(name);
  }

}

=== FILE: results.dfy ===
/** Optional values and fallible results, for the service's `null` returns and thrown errors. */
module Results {

  datatype Option<+T> = None | Some(value: T) {
    /** The wrapped value, or `default` when there is none. */
    function GetOr(default: T): T {
      match this
      case Some(v) => v
      case None => default
    }
  }

  datatype Result<+T, +E> = Success(value: T) | Failure(error: E)
}

=== FILE: text.dfy ===
/**
 * The JavaScript string built-ins the service relies on: `indexOf`, `includes`,
 * `split` with a string separator, `join` and `trim`. Strings are sequences of
 * Unicode scalar values.
 */
module Text {
  import opened Results

  /** `pattern` occurs in `text` starting at index `i`. */
  predicate OccursAt(text: string, pattern: string, i: nat)
  {
    i + |pattern| <= |text| && text[i..i + |pattern|] == pattern
  }

  /** A one-character pattern occurs exactly where that character stands. */
  lemma OccursAtChar(text: string, c: char, i: nat)
    ensures OccursAt(text, [c], i) <==> i < |text| && text[i] == c
  {
    if i < |text| {
      assert text[i..i + 1] == [text[i]];
    }
  }

  /** `text.indexOf(pattern, from)`: the first occurrence at or after `from`. */
  function IndexOfFrom(text: string, pattern: string, from: nat): (r: Option<nat>)
    ensures r.Some? ==> from <= r.value && OccursAt(text, pattern, r.value)
    ensures r.Some? ==> forall j: nat :: from <= j < r.value ==> !OccursAt(text, pattern, j)
    ensures r.None? ==> forall j: nat :: from <= j ==> !OccursAt(text, pattern, j)
    decreases |text| - from
  {
    if from + |pattern| > |text| then None
    else if text[from..from + |pattern|] == pattern then Some(from)
    else IndexOfFrom(text, pattern, from + 1)
  }

  /** `text.indexOf(pattern)`. */
  function IndexOf(text: string, pattern: string): Option<nat>
  {
    IndexOfFrom(text, pattern, 0)
  }

  /** `text.includes(pattern)`. */
  predicate Contains(text: string, pattern: string)
  {
    IndexOf(text, pattern).Some?
  }

  /** An occurrence inside a part is an occurrence in the whole. */
  lemma {:induction false} ContainsInConcat(a: string, b: string, c: string, pattern: string)
    requires Contains(b, pattern)
    ensures Contains(a + b + c, pattern)
  {
    var i := IndexOf(b, pattern).value;
    var t := a + b + c;
    assert t[|a| + i..|a| + i + |pattern|] == b[i..i + |pattern|];
    assert OccursAt(t, pattern, |a| + i);
  }

  /** `parts.join(sep)`. */
  function Join(parts: seq<string>, sep: string): string
  {
    if |parts| == 0 then ""
    else if |parts| == 1 then parts[0]
    else parts[0] + sep + Join(parts[1..], sep)
  }

  /**
   * The loop of `text.split(sep)` from index `from` on: cut at each leftmost
   * occurrence and resume searching after it, so occurrences never overlap.
   */
  function SplitFrom(text: string, sep: string, from: nat): (parts: seq<string>)
    requires sep != [] && from <= |text|
    ensures |parts| >= 1
    ensures |parts| == 1 <==> IndexOfFrom(text, sep, from).None?
    decreases |text| - from
  {
    match IndexOfFrom(text, sep, from)
    case None => [text[from..]]
    case Some(j) => [text[from..j]] + SplitFrom(text, sep, j + |sep|)
  }

  /** Joining the parts of a split with the separator gives the text back. */
  lemma {:induction false} SplitFromJoin(text: string, sep: string, from: nat)
    requires sep != [] && from <= |text|
    ensures Join(SplitFrom(text, sep, from), sep) == text[from..]
    decreases |text| - from, 1
  {
    if IndexOfFrom(text, sep, from).Some? {
      SplitFromJoinStep(text, sep, from);
    } else {
      SplitFromJoinLast(text, sep, from);
    }
  }

  /** The search after an occurrence resumes past `from` and within the text. */
  lemma NextSearchStart(text: string, sep: string, from: nat)
    requires sep != [] && IndexOfFrom(text, sep, from).Some?
    ensures from < IndexOfFrom(text, sep, from).value + |sep| <= |text|
  {
  }

  /** The base case of `SplitFromJoin`: no occurrence left, so one part, the rest of the text. */
  lemma SplitFromJoinLast(text: string, sep: string, from: nat)
    requires sep != [] && from <= |text| && IndexOfFrom(text, sep, from).None?
    ensures Join(SplitFrom(text, sep, from), sep) == text[from..]
  {
    assert SplitFrom(text, sep, from) == [text[from..]];
  }

  /** The inductive step of `SplitFromJoin`: one more part in front of a rejoined rest. */
  lemma SplitFromJoinStep(text: string, sep: string, from: nat)
    requires sep != [] && from <= |text| && IndexOfFrom(text, sep, from).Some?
    ensures Join(SplitFrom(text, sep, from), sep) == text[from..]
    decreases |text| - from, 0
  {
    var j := IndexOfFrom(text, sep, from).value;
    NextSearchStart(text, sep, from);
    SplitFromJoin(text, sep, j + |sep|);
    var rest := SplitFrom(text, sep, j + |sep|);
    SplitFromStep(text, sep, from);
    JoinCons(text[from..j], rest, sep);
    AroundOccurrence(text, sep, from, j);
  }

  /** The last part of a split from `from` is the last part of the split after the next occurrence. */
  lemma SplitFromLastPart(text: string, sep: string, from: nat)
    requires sep != [] && from <= |text| && IndexOfFrom(text, sep, from).Some?
    ensures var j := IndexOfFrom(text, sep, from).value;
      var parts, rest := SplitFrom(text, sep, from), SplitFrom(text, sep, j + |sep|);
      parts[|parts| - 1] == rest[|rest| - 1]
  {
    var j := IndexOfFrom(text, sep, from).value;
    SplitFromStep(text, sep, from);
    LastOfCons(SplitFrom(text, sep, from), text[from..j], SplitFrom(text, sep, j + |sep|));
  }

  /** A sequence made of one element and then `rest` ends as `rest` does. */
  lemma LastOfCons(whole: seq<string>, x: string, rest: seq<string>)
    requires whole == [x] + rest && |rest| >= 1
    ensures whole[|whole| - 1] == rest[|rest| - 1]
  {
  }

  /** Joining a part in front of at least one more part puts the separator between them. */
  lemma JoinCons(part: string, rest: seq<string>, sep: string)
    requires |rest| >= 1
    ensures Join([part] + rest, sep) == part + sep + Join(rest, sep)
  {
    assert ([part] + rest)[1..] == rest;
  }

  /** A text from `from` on is what precedes an occurrence at `j`, the occurrence, and what follows it. */
  lemma AroundOccurrence(text: string, sep: string, from: nat, j: nat)
    requires from <= j && OccursAt(text, sep, j)
    ensures text[from..] == text[from..j] + sep + text[j + |sep|..]
  {
    assert text[from..] == text[from..j] + text[j..j + |sep|] + text[j + |sep|..];
  }

  /** One step of the `split` loop: the part before the next occurrence, then the rest. */
  lemma SplitFromStep(text: string, sep: string, from: nat)
    requires sep != [] && from <= |text| && IndexOfFrom(text, sep, from).Some?
    ensures var j := IndexOfFrom(text, sep, from).value;
      SplitFrom(text, sep, from) == [text[from..j]] + SplitFrom(text, sep, j + |sep|)
  {
  }

  /** `text.split(sep)` for a non-empty separator. */
  function Split(text: string, sep: string): seq<string>
    requires sep != []
  {
    SplitFrom(text, sep, 0)
  }

  /** The only occurrences of `sep` in `text` start inside the one at `k`. */
  ghost predicate OnlyOccurrence(text: string, sep: string, k: nat)
  {
    OccursAt(text, sep, k) && forall j: nat :: OccursAt(text, sep, j) ==> k <= j < k + |sep|
  }

  /** The two-part shape of `split`, unfolded from its definition. */
  lemma {:induction false} SplitTwoParts(text: string, sep: string)
    requires sep != [] && IndexOf(text, sep).Some?
    ensures var k := IndexOf(text, sep).value;
      |Split(text, sep)| == 2 <==> IndexOfFrom(text, sep, k + |sep|).None?
    ensures var k := IndexOf(text, sep).value;
      |Split(text, sep)| == 2 ==> Split(text, sep) == [text[..k], text[k + |sep|..]]
  {
    var k := IndexOf(text, sep).value;
    var rest := SplitFrom(text, sep, k + |sep|);
    var parts := Split(text, sep);
    assert parts == [text[0..k]] + rest;
    assert |parts| == 1 + |rest|;
    if IndexOfFrom(text, sep, k + |sep|).None? {
      assert rest == [text[k + |sep|..]];
      assert parts == [text[..k], text[k + |sep|..]];
    }
  }

  /**
   * `split` yields exactly two parts when every occurrence of the separator starts
   * inside the first one; the parts are the text before and after that occurrence.
   */
  lemma {:induction false} SplitInTwo(text: string, sep: string)
    requires sep != []
    ensures |Split(text, sep)| == 2 <==> exists k: nat :: OnlyOccurrence(text, sep, k)
    ensures |Split(text, sep)| == 2 ==>
      var k := IndexOf(text, sep).value;
      text == Split(text, sep)[0] + sep + Split(text, sep)[1] &&
      Split(text, sep)[0] == text[..k] && Split(text, sep)[1] == text[k + |sep|..]
  {
    match IndexOf(text, sep)
    case None =>
    case Some(k) =>
      SplitTwoParts(text, sep);
      if IndexOfFrom(text, sep, k + |sep|).None? {
        assert OnlyOccurrence(text, sep, k);
        assert text == text[..k] + sep + text[k + |sep|..];
      } else {
        var j := IndexOfFrom(text, sep, k + |sep|).value;
        forall k': nat
          ensures !OnlyOccurrence(text, sep, k')
        {
          if OccursAt(text, sep, k') {
            if k' == k {
              assert OccursAt(text, sep, j) && !(k' <= j < k' + |sep|);
            } else {
              assert OccursAt(text, sep, k) && !(k' <= k < k' + |sep|);
            }
          }
        }
      }
  }

  /** A separator occurring exactly once splits the text in two. */
  lemma SplitOnceOccurring(text: string, sep: string, k: nat)
    requires sep != []
    requires forall j: nat :: OccursAt(text, sep, j) <==> j == k
    ensures |Split(text, sep)| == 2
  {
    SplitInTwo(text, sep);
    assert OnlyOccurrence(text, sep, k);
  }

  /** A separator that does not occur leaves the text whole. */
  lemma SplitAbsent(text: string, sep: string)
    requires sep != [] && !Contains(text, sep)
    ensures Split(text, sep) == [text]
  {
  }

  /** JavaScript's WhiteSpace and LineTerminator code points, which `trim` removes. */
  predicate IsWhiteSpace(c: char)
  {
    var n := c as int;
    n == 0x09 || n == 0x0A || n == 0x0B || n == 0x0C || n == 0x0D || n == 0x20 ||
    n == 0xA0 || n == 0x1680 || (0x2000 <= n <= 0x200A) || n == 0x2028 || n == 0x2029 ||
    n == 0x202F || n == 0x205F || n == 0x3000 || n == 0xFEFF
  }

  /** Removes leading white space: the result is the suffix of `s` after a white-space run. */
  function TrimStart(s: string): (r: string)
    ensures |r| <= |s| && r == s[|s| - |r|..]
    ensures forall i :: 0 <= i < |s| - |r| ==> IsWhiteSpace(s[i])
    ensures r != [] ==> !IsWhiteSpace(r[0])
  {
    if s != [] && IsWhiteSpace(s[0]) then TrimStart(s[1..]) else s
  }

  /** Removes trailing white space: the result is the prefix of `s` before a white-space run. */
  function TrimEnd(s: string): (r: string)
    ensures |r| <= |s| && r == s[..|r|]
    ensures forall i :: |r| <= i < |s| ==> IsWhiteSpace(s[i])
    ensures r != [] ==> !IsWhiteSpace(r[|r| - 1])
  {
    if s != [] && IsWhiteSpace(s[|s| - 1]) then TrimEnd(s[..|s| - 1]) else s
  }

  /** `s.trim()`. */
  function Trim(s: string): string
  {
    TrimEnd(TrimStart(s))
  }

  /** `!s.trim()`: a string trims to empty exactly when it is all white space. */
  lemma TrimEmptyIff(s: string)
    ensures Trim(s) == "" <==> forall i :: 0 <= i < |s| ==> IsWhiteSpace(s[i])
  {
    var t := TrimStart(s);
    if !(forall i :: 0 <= i < |s| ==> IsWhiteSpace(s[i])) {
      var i :| 0 <= i < |s| && !IsWhiteSpace(s[i]);
      assert |s| - |t| <= i;
      assert t[i - (|s| - |t|)] == s[i];
    }
  }
}

=== FILE: uri_component.dfy ===
/**
 * `encodeURIComponent` and `decodeURIComponent`: percent-encoding of the UTF-8
 * bytes of every character outside the unreserved set, and its inverse, which
 * fails (a URIError in JavaScript) on a malformed escape or invalid UTF-8.
 */
module UriComponent {
  import opened Results
  import Text

  type Byte = b: int | 0 <= b < 256

  /** The characters `encodeURIComponent` leaves as they are. */
  predicate IsUnreserved(c: char)
  {
    ('A' <= c <= 'Z') || ('a' <= c <= 'z') || ('0' <= c <= '9') ||
    c == '-' || c == '_' || c == '.' || c == '!' || c == '~' || c == '*' ||
    c == '\'' || c == '(' || c == ')'
  }

  const HexDigits: string := "0123456789ABCDEF"

  function HexDigit(d: nat): char
    requires d < 16
  {
    HexDigits[d]
  }

  /** The value of a hexadecimal digit, of either case. */
  function HexValue(c: char): Option<nat>
  {
    if '0' <= c <= '9' then Some(c as int - '0' as int)
    else if 'A' <= c <= 'F' then Some(c as int - 'A' as int + 10)
    else if 'a' <= c <= 'f' then Some(c as int - 'a' as int + 10)
    else None
  }

  lemma HexDigitValue(d: nat)
    requires d < 16
    ensures HexValue(HexDigit(d)) == Some(d)
  {
  }

  /** The UTF-8 encoding of one Unicode scalar value. */
  function Utf8(c: char): (bytes: seq<Byte>)
  {
    var n := c as int;
    if n < 0x80 then [n]
    else if n < 0x800 then [0xC0 + n / 64, 0x80 + n % 64]
    else if n < 0x10000 then [0xE0 + n / 4096, 0x80 + (n / 64) % 64, 0x80 + n % 64]
    else [0xF0 + n / 262144, 0x80 + (n / 4096) % 64, 0x80 + (n / 64) % 64, 0x80 + n % 64]
  }

  predicate IsContinuation(b: Byte)
  {
    0x80 <= b < 0xC0
  }

  /** How many bytes a UTF-8 sequence with lead byte `b` has; 0 for a byte that cannot lead. */
  function SequenceLength(b: Byte): nat
  {
    if b < 0x80 then 1
    else if b < 0xC0 then 0
    else if b < 0xE0 then 2
    else if b < 0xF0 then 3
    else if b < 0xF8 then 4
    else 0
  }

  /** Decodes one complete UTF-8 sequence, rejecting overlong forms, surrogates and values past U+10FFFF. */
  function Utf8Decode(bytes: seq<int>): Option<char>
    requires forall i :: 0 <= i < |bytes| ==> 0 <= bytes[i] < 256
  {
    if |bytes| == 0 || SequenceLength(bytes[0]) != |bytes| then None
    else if !(forall i :: 1 <= i < |bytes| ==> IsContinuation(bytes[i])) then None
    else if |bytes| == 1 then Some(bytes[0] as char)
    else if |bytes| == 2 then
      var n: int := (bytes[0] - 0xC0) * 64 + (bytes[1] - 0x80);
      if 0x80 <= n then Some(n as char) else None
    else if |bytes| == 3 then
      var n: int := (bytes[0] - 0xE0) * 4096 + (bytes[1] - 0x80) * 64 + (bytes[2] - 0x80);
      if 0x800 <= n && !(0xD800 <= n < 0xE000) then Some(n as char) else None
    else
      var n: int := (bytes[0] - 0xF0) * 262144 + (bytes[1] - 0x80) * 4096 + (bytes[2] - 0x80) * 64 + (bytes[3] - 0x80);
      if 0x10000 <= n < 0x110000 then Some(n as char) else None
  }

  /** UTF-8 decoding undoes UTF-8 encoding, and the lead byte announces the length. */
  lemma Utf8RoundTrip(c: char)
    ensures 1 <= |Utf8(c)| <= 4
    ensures SequenceLength(Utf8(c)[0]) == |Utf8(c)|
    ensures Utf8Decode(Utf8(c)) == Some(c)
  {
    var n := c as int;
    if 0x800 <= n < 0x10000 {
      assert n / 4096 == (n / 64) / 64;
    } else if 0x10000 <= n {
      assert n / 262144 == ((n / 64) / 64) / 64;
      assert n / 4096 == (n / 64) / 64;
    }
  }

  /** `%XX` with upper-case hex digits. */
  function Percent(b: Byte): string
  {
    ['%', HexDigit(b / 16), HexDigit(b % 16)]
  }

  /** The escapes of a byte sequence, one `%XX` per byte. */
  function PercentAll(bytes: seq<Byte>): string
  {
    if bytes == [] then "" else Percent(bytes[0]) + PercentAll(bytes[1..])
  }

  /** How one character is encoded. */
  function EncodeChar(c: char): string
  {
    if IsUnreserved(c) then [c] else PercentAll(Utf8(c))
  }

  /** `encodeURIComponent(s)`. */
  function Encode(s: string): string
  {
    if s == [] then "" else EncodeChar(s[0]) + Encode(s[1..])
  }

  /** What encoded text is made of: unreserved characters and `%`. */
  predicate EncodedAlphabet(r: string)
  {
    forall i :: 0 <= i < |r| ==> IsUnreserved(r[i]) || r[i] == '%'
  }

  /** Two pieces of encoded text make encoded text. */
  lemma AlphabetConcat(x: string, y: string)
    requires EncodedAlphabet(x) && EncodedAlphabet(y)
    ensures EncodedAlphabet(x + y)
  {
    forall i | 0 <= i < |x + y|
      ensures IsUnreserved((x + y)[i]) || (x + y)[i] == '%'
    {
      if i >= |x| {
        assert (x + y)[i] == y[i - |x|];
      }
    }
  }

  /** Escapes use only `%` and upper-case hexadecimal digits. */
  lemma {:induction false} PercentAllAlphabet(bytes: seq<Byte>)
    ensures EncodedAlphabet(PercentAll(bytes))
  {
    if bytes != [] {
      PercentAllAlphabet(bytes[1..]);
      assert EncodedAlphabet(Percent(bytes[0]));
      AlphabetConcat(Percent(bytes[0]), PercentAll(bytes[1..]));
    }
  }

  /** `encodeURIComponent(s)` leaves only unreserved characters and `%`. */
  lemma {:induction false} EncodeAlphabet(s: string)
    ensures EncodedAlphabet(Encode(s))
  {
    if s != [] {
      EncodeAlphabet(s[1..]);
      if !IsUnreserved(s[0]) {
        PercentAllAlphabet(Utf8(s[0]));
      }
      AlphabetConcat(EncodeChar(s[0]), Encode(s[1..]));
    }
  }

  /** The byte written as `%XX` at the start of `s`. */
  function EscapedByte(s: string): Option<Byte>
  {
    if |s| >= 3 && s[0] == '%' && HexValue(s[1]).Some? && HexValue(s[2]).Some?
    then Some(HexValue(s[1]).value * 16 + HexValue(s[2]).value)
    else None
  }

  /** The `count` bytes written as consecutive `%XX` escapes at the start of `s`. */
  function EscapedBytes(s: string, count: nat): (r: Option<seq<Byte>>)
    ensures r.Some? ==> |r.value| == count && 3 * count <= |s|
  {
    if count == 0 then Some([])
    else match EscapedByte(s)
      case None => None
      case Some(b) =>
        match EscapedBytes(s[3..], count - 1)
        case None => None
        case Some(bs) => Some([b] + bs)
  }

  /** Decodes the escape group at the start of `s`: the character and how many characters it spans. */
  function DecodeEscape(s: string): (r: Option<(char, nat)>)
    ensures r.Some? ==> 3 <= r.value.1 <= |s|
  {
    match EscapedByte(s)
    case None => None
    case Some(lead) =>
      var n := SequenceLength(lead);
      if n == 0 then None
      else match EscapedBytes(s, n)
        case None => None
        case Some(bytes) =>
          match Utf8Decode(bytes)
          case None => None
          case Some(c) => Some((c, 3 * n))
  }

  function Prepend(c: char, r: Option<string>): Option<string>
  {
    match r
    case None => None
    case Some(t) => Some([c] + t)
  }

  /** `decodeURIComponent(s)`; `None` where JavaScript throws a URIError. */
  function Decode(s: string): Option<string>
    decreases |s|
  {
    if s == [] then Some([])
    else if s[0] != '%' then Prepend(s[0], Decode(s[1..]))
    else match DecodeEscape(s)
      case None => None
      case Some(e) => Prepend(e.0, Decode(s[e.1..]))
  }

  /** The `%XX` escapes of some bytes read back as those bytes, three characters per byte. */
  lemma {:induction false} EscapedBytesOfPercentAll(bytes: seq<Byte>, rest: string)
    ensures EscapedBytes(PercentAll(bytes) + rest, |bytes|) == Some(bytes)
    ensures |PercentAll(bytes)| == 3 * |bytes|
  {
    if bytes != [] {
      EscapedBytesOfPercentAll(bytes[1..], rest);
      EscapedBytesStep(bytes, rest);
    }
  }

  /** The inductive step of `EscapedBytesOfPercentAll`: one more escape in front. */
  lemma EscapedBytesStep(bytes: seq<Byte>, rest: string)
    requires bytes != []
    requires EscapedBytes(PercentAll(bytes[1..]) + rest, |bytes| - 1) == Some(bytes[1..])
    requires |PercentAll(bytes[1..])| == 3 * (|bytes| - 1)
    ensures EscapedBytes(PercentAll(bytes) + rest, |bytes|) == Some(bytes)
    ensures |PercentAll(bytes)| == 3 * |bytes|
  {
    var tail := PercentAll(bytes[1..]) + rest;
    assert PercentAll(bytes) == Percent(bytes[0]) + PercentAll(bytes[1..]);
    SeqAssoc(Percent(bytes[0]), PercentAll(bytes[1..]), rest);
    EscapedByteOfPercent(bytes[0], tail);
    assert [bytes[0]] + bytes[1..] == bytes;
  }

  /** A `%XX` escape reads back as its byte, and what follows it is left over. */
  lemma EscapedByteOfPercent(b: Byte, rest: string)
    ensures EscapedByte(Percent(b) + rest) == Some(b)
    ensures (Percent(b) + rest)[3..] == rest
  {
    var s := Percent(b) + rest;
    HexDigitValue(b / 16);
    HexDigitValue(b % 16);
    assert s[0] == '%' && s[1] == HexDigit(b / 16) && s[2] == HexDigit(b % 16);
  }

  /** The escape group of a percent-encoded character decodes to that character. */
  lemma DecodeEscapeOfEncoded(c: char, rest: string)
    requires !IsUnreserved(c)
    ensures DecodeEscape(PercentAll(Utf8(c)) + rest) == Some((c, 3 * |Utf8(c)|))
  {
    var bytes := Utf8(c);
    Utf8RoundTrip(c);
    EscapedBytesOfPercentAll(bytes, rest);
    assert PercentAll(bytes) == Percent(bytes[0]) + PercentAll(bytes[1..]);
    SeqAssoc(Percent(bytes[0]), PercentAll(bytes[1..]), rest);
    EscapedByteOfPercent(bytes[0], PercentAll(bytes[1..]) + rest);
  }

  /** Decoding the encoding of one character yields that character and goes on with the rest. */
  lemma DecodeEncodedChar(c: char, rest: string)
    ensures Decode(EncodeChar(c) + rest) == Prepend(c, Decode(rest))
  {
    var s := EncodeChar(c) + rest;
    if IsUnreserved(c) {
      assert s[1..] == rest;
    } else {
      DecodeEscapeOfEncoded(c, rest);
      EscapedBytesOfPercentAll(Utf8(c), rest);
      Utf8RoundTrip(c);
      assert s[0] == '%';
      assert s[3 * |Utf8(c)|..] == rest;
    }
  }

  /** `decodeURIComponent(encodeURIComponent(s)) === s`. */
  lemma {:induction false} DecodeEncode(s: string)
    ensures Decode(Encode(s)) == Some(s)
  {
    if s != [] {
      DecodeEncodedChar(s[0], Encode(s[1..]));
      DecodeEncode(s[1..]);
      assert [s[0]] + s[1..] == s;
    }
  }

  /** The concatenation of `f` applied to each character of `s`. */
  function ConcatMap(f: char -> string, s: string): string
  {
    if s == [] then "" else f(s[0]) + ConcatMap(f, s[1..])
  }

  /** Mapping character by character distributes over concatenation. */
  lemma {:induction false} ConcatMapAppend(f: char -> string, a: string, b: string)
    ensures ConcatMap(f, a + b) == ConcatMap(f, a) + ConcatMap(f, b)
  {
    if a == [] {
      assert a + b == b;
    } else {
      assert (a + b)[0] == a[0];
      assert (a + b)[1..] == a[1..] + b;
      ConcatMapAppend(f, a[1..], b);
    }
  }

  /** `encodeURIComponent` encodes each character on its own. */
  lemma {:induction false} EncodeIsConcatMap(s: string)
    ensures Encode(s) == ConcatMap(EncodeChar, s)
  {
    if s != [] {
      EncodeIsConcatMap(s[1..]);
    }
  }

  /** Encoding works character by character. */
  lemma EncodeConcat(a: string, b: string)
    ensures Encode(a + b) == Encode(a) + Encode(b)
  {
    EncodeIsConcatMap(a + b);
    EncodeIsConcatMap(a);
    EncodeIsConcatMap(b);
    ConcatMapAppend(EncodeChar, a, b);
  }

  lemma SeqAssoc<T>(x: seq<T>, y: seq<T>, z: seq<T>)
    ensures x + (y + z) == (x + y) + z
  {
  }

  /** Text made of unreserved characters is encoded as itself. */
  lemma {:induction false} EncodeUnreserved(s: string)
    requires forall i :: 0 <= i < |s| ==> IsUnreserved(s[i])
    ensures Encode(s) == s
  {
    if s != [] {
      EncodeUnreserved(s[1..]);
    }
  }

  /** An unreserved piece of text, such as `.pdf`, survives encoding. */
  lemma EncodeKeepsUnreservedText(s: string, pattern: string)
    requires forall i :: 0 <= i < |pattern| ==> IsUnreserved(pattern[i])
    requires Text.Contains(s, pattern)
    ensures Text.Contains(Encode(s), pattern)
  {
    var i := Text.IndexOf(s, pattern).value;
    var a, b := s[..i], s[i + |pattern|..];
    assert s == a + pattern + b;
    EncodeConcat(a + pattern, b);
    EncodeConcat(a, pattern);
    EncodeUnreserved(pattern);
    assert Text.OccursAt(pattern, pattern, 0);
    Text.ContainsInConcat(Encode(a), pattern, Encode(b), pattern);
  }
}
